=== FILE: README.md ===
# Postage pipeline model

A Dafny model of the fulfilment pipeline in `scripts/generate_postage.py`. The
script reads recipient rows from a CSV file, creates one USPS shipment per row
with the EasyPost carrier, buys postage and saves each label, renders a note
per row, merges each label with its note using `pdfjam`, and writes a
reconciliation report `results/compiled_results.csv`. When something fails
after postage was bought, it asks the carrier for refunds.

The model has five modules:

- `Text`: the pure string rules.
  - `str(n)` for a natural number.
  - `str.zfill`.
  - `upper()` over the Latin-1 range, including 'ß' to "SS".
  - Destination state normalisation: line 55 as written (`row["State"][:2].upper()`), which the shipment requests carry, and the corrected form `State.upper()[:2]` (see Findings).
  - Python's string ordering, and `sorted` over a row's keys.
- `Artifacts`: artifact file names, `<dir>/ROW_<index zero-padded to 3>_<tracking code>_<kind>.pdf`, and the report path. It proves that files of different kinds never share a name and that, within one kind, the name determines the row index and the text of the tracking code. A shipment never bought is named with the text "None", like a shipment whose code is "None".
- `Report`: the report header (`sorted(keys) + ["Tracking Code", "Label And Note"]`) and `csv.DictWriter.writerow` on a row updated with the two added cells.
- `Pipeline`: every stage as a function from the state before it, plus the lemmas about those functions.
  - The stages are generate_shipments, purchase_postage, refund_postage, generate_notes, merge_labels_and_notes, write_results and run.
  - The state is a `World`: the shipment list, the carrier calls made in order, the files written in order, and the report lines.
  - Every outcome the script does not compute itself comes from an `Environment` value, fixed per row index. This covers carrier answers, label downloads (and, for a failed one, whether the label file was already open), note rendering, `pdfjam`'s own outcome, and whether the CSV path exists and the report file opens.
  - `pdfjam` reads the label and the note of its index, so a merge also fails when either file is not among the files written. The files written before a run starts stand for what is already on disk.
- `Fulfilment`: class `PostageRun` runs the same stages in the same order. Each stage is a loop over mutable fields: the shipment list, the call log, the files written and the report lines. Each method is proved to end in exactly the state and result that its `Pipeline` function gives. So every lemma about the functions also holds for the methods.

A shipment moves through the states `Created`, `Purchased` and `RefundAttempted`.

## Model

| member | source | states |
|---|---|---|
| Text.ParseDecimalOfDecimal | scripts/generate_postage.py:75 | `str(n)` is a string of digits that reads back as `n` |
| Text.ZFillShape | scripts/generate_postage.py:75 | `zfill(width)` on digits only prepends '0' characters, up to `width` characters; it keeps the original as a suffix and keeps its value |
| Text.Pad3Shape | scripts/generate_postage.py:74-75 | `str(index).zfill(3)` is all digits and at least 3 long. It is exactly 3 long iff index < 1000, it is `str(index)` from 1000 on, and it reads back as the index |
| Text.Pad3Injective | scripts/generate_postage.py:74-75 | two different indices never get the same padded index |
| Text.Upper | scripts/generate_postage.py:55 | `upper()` is never shorter than its input and at most twice as long ('ß' becomes "SS"), and no character of the result has an upper case other than itself |
| Text.UpperAppend | scripts/generate_postage.py:55 | `upper()` works character by character: it distributes over concatenation |
| Text.UpperIdempotent | scripts/generate_postage.py:55 | over Latin-1, upper-casing an upper-cased string changes nothing |
| Text.UpperKeepsLength | scripts/generate_postage.py:55 | over Latin-1 and without an 'ß', `upper()` keeps the length and upper-cases each character at its own position |
| Text.NormalizeStateAsWritten | scripts/generate_postage.py:55 | `State[:2].upper()` as written, over Latin-1: at least `min(2, len)` and at most 4 characters, none with another upper case |
| Text.NormalizeStateAsWrittenTooLong | scripts/generate_postage.py:55 | as written, "ßa" normalises to "SSA", three characters, and "SSA" normalises to "SS": neither the two-character bound nor idempotence holds |
| Text.NormalizeState | scripts/generate_postage.py:55 | the corrected normalisation `State.upper()[:2]` has at most two characters |
| Text.NormalizeStateShape | scripts/generate_postage.py:55 | the corrected normalisation is the whole upper-cased value or its first two characters, is a prefix of the upper-cased value, and is upper case |
| Text.NormalizeStateAgrees | scripts/generate_postage.py:55 | when neither of the first two characters is 'ß', the corrected normalisation equals line 55 as written |
| Text.NormalizeStateIdempotent | scripts/generate_postage.py:55 | normalising an already normalised state changes nothing |
| Text.SortedKeys | scripts/generate_postage.py:132 | `sorted(row.keys())` holds every key exactly once, in strictly ascending Python string order |
| Artifacts.ArtifactPathInjective | scripts/generate_postage.py:113-118 | for every index, also from 1000 on, an artifact name of a given directory and kind determines its row index and tracking code |
| Artifacts.ArtifactPathIndexField | scripts/generate_postage.py:74-75 | below index 1000, the three characters after `<dir>/ROW_` are digits that read back as the index, and a '_' follows them |
| Artifacts.ArtifactKindsDistinct | scripts/generate_postage.py:113-127 | no two of a label, a note, a merged document and the report share a path (all six pairs), whatever their indices and tracking codes |
| Artifacts.MissingCodeNamedNone | scripts/generate_postage.py:113-118 | the files of a shipment with no tracking code have the names of those with the code "None" |
| Report.Header | scripts/generate_postage.py:132-133 | the header is the first row's keys once each in ascending order, followed by "Tracking Code" and then "Label And Note" |
| Report.HeaderColumns | scripts/generate_postage.py:132-133 | the header's columns are exactly the first row's keys and the two added columns |
| Report.WriteRowReadsBack | scripts/generate_postage.py:141 | `writerow` refuses the row (a ValueError) iff it has a key outside the header. Otherwise reading the line back under the header gives the row with "" in the columns it lacked, and every key of the row reads back as its own value |
| Report.AddedCells | scripts/generate_postage.py:139-141 | under any header ending in the two added columns, a line holds the tracking code (`None` written as "") and the merged-document path there, and the row's own cells elsewhere |
| Report.ReportLineLayout | scripts/generate_postage.py:134-141 | under the first row's header, a line exists iff every column of the row is one of the header's columns. It then has the header's length, and its last two cells are the tracking code and the merged path of its index |
| Pipeline.CreateShipmentsAligned | scripts/generate_postage.py:43-60 | creation succeeds iff every row has its six address columns and is accepted. On success it returns exactly one shipment per row, unbought and with no tracking code; shipment j's request holds row j's name, street lines, city and zip, its state cut to two characters and then upper-cased as line 55 does, strict delivery verification and a 4x6 PDF label. The carrier saw one create per row in row order, and nothing else changed |
| Pipeline.CreateShipmentsStopsAtFirstFailure | scripts/generate_postage.py:43-60 | a failing creation stops at the first bad row k. A missing column raises before the carrier call for k, a rejection after it; every row before k was fine, and only rows 0..k-1 (plus k when rejected) were sent |
| Pipeline.PurchaseStopsAtFirstFailure | scripts/generate_postage.py:63-79 | buys happen in index order. Failure at k: 0..k-1 are Purchased with the tracking code their buy returned and their labels saved in order, k is Purchased with its code iff its buy succeeded, an empty label k follows iff its download failed after line 73 opened the file, shipments after k are untouched, and buys went to 0..k only. No failure: all are bought and all labels saved |
| Pipeline.PurchaseFailsAt | scripts/generate_postage.py:63-83 | on created shipments, a purchase whose first failure is at k reports k; every shipment ends RefundAttempted, those up to k with the tracking code the carrier returned and the rest with none; exactly the labels of 0..k-1 were written, then an empty label k when its download failed after line 73 opened the file and before line 78 had read it |
| Pipeline.PurchaseFailureRefundsWholeList | scripts/generate_postage.py:63-83 | `purchase_postage` returns normally either way. After a failure at k, every shipment of the list, not only the bought ones, had a refund requested after buys 0..k. Without a failure there are no refunds and every shipment is Purchased with the carrier's tracking code |
| Pipeline.RefundSweepTotal | scripts/generate_postage.py:32-40 | every shipment gets one refund request, in list order, whether or not earlier requests failed. Each ends RefundAttempted with its request and tracking code kept; files and report are untouched |
| Pipeline.NotesFromStops | scripts/generate_postage.py:86-106 | the notes loop changes only the files written. It completes iff every row has a shipment of its index, its note columns, and a successful render |
| Pipeline.NotesFromWritten | scripts/generate_postage.py:86-106 | a completed notes loop appends one note per row in row order, named after the shipment of the same index |
| Pipeline.NotesTable | scripts/generate_postage.py:86-106 | when every row's note can be written, note j is written under shipment j's tracking code and holds row j's "CBI Message", "SendingFrom" and "Generic Message" cells |
| Pipeline.MergeFromEffect | scripts/generate_postage.py:109-123 | the merge loop changes only the files written. It appends one merged document per index, in index order, up to where it stops: the end of the list, or the index of the `MergeFailed` it reports |
| Pipeline.MergeFromStops | scripts/generate_postage.py:109-123 | the merge loop completes iff `pdfjam` succeeds for every index, which needs label i and note i under shipment i's tracking code among the files written. Otherwise it reports the first index where `pdfjam` fails |
| Pipeline.MergeFromStopsBy | scripts/generate_postage.py:109-123 | where `pdfjam` cannot succeed for index j, the merge loop fails at j or earlier |
| Pipeline.ReportFromStops | scripts/generate_postage.py:130-141 | the report loop changes only the report lines. It completes iff every row has a shipment of its index and no column beyond the header |
| Pipeline.WriteResultsLines | scripts/generate_postage.py:126-141 | a completed `write_results` on a non-empty input records the report file. The report is the first row's header followed by each row's line for the shipment of the same index |
| Pipeline.ReportFromFailsAt | scripts/generate_postage.py:134-141 | a report loop that fails does so at a row m with no shipment (NoShipment) or with a column beyond the header's (UnexpectedField); every earlier row had its line |
| Pipeline.ReportFromPartial | scripts/generate_postage.py:134-141 | when row m is the first without a line, the report loop appends the lines of the rows before m, nothing more, and fails at m: NoShipment when there is no shipment m, UnexpectedField otherwise |
| Pipeline.WriteResultsPartial | scripts/generate_postage.py:126-141 | a `write_results` that fails after the open at line 129 still records the truncated report file: the first row's header, then the lines of the rows before the failing one |
| Pipeline.WriteResultsAligned | scripts/generate_postage.py:126-141 | in a completed report, line k+1 has the header's width and carries shipment k's tracking code and the path of merged document k |
| Pipeline.FinishTouchesNoShipment | scripts/generate_postage.py:160-163 | notes, merging and the report neither change the shipments nor call the carrier |
| Pipeline.FinishWritten | scripts/generate_postage.py:160-163 | when the three later stages complete, they write exactly the notes in row order, then the merged documents in index order, then the report |
| Pipeline.FinishAppends | scripts/generate_postage.py:160-163 | the later stages only append files: the notes first when every note can be written, then the merged documents when every merge finds its label and note and succeeds |
| Pipeline.MergeInputsWritten | scripts/generate_postage.py:113-123 | after a complete purchase and notes stage, label j and note j, named after the tracking code bought for j, are both among the files written, so every merge finds its inputs |
| Pipeline.FinishFailsBeforeReport | scripts/generate_postage.py:160-166 | when the notes loop or the merge loop fails, the later stages end with that failure (a missing shipment or column, a rendering failure or a failed merge), the report is as before, and the files added are only notes and merged documents |
| Pipeline.StagesOnAllLabels | scripts/generate_postage.py:160-166 | with a label, possibly empty, for every shipment under the code its buy returned: when every note renders and `pdfjam` merges every pair, the notes and then the merged documents of all rows follow the labels; when the stages complete, no refund sweep follows and the report has the header and one line per row |
| Pipeline.FinishFailsWithoutLabel | scripts/generate_postage.py:109-123 | when label k is not among the files written, the later stages fail, in the notes loop or at a merge of index k or earlier, before the report file is opened; they add only notes and merged documents |
| Pipeline.SettleAppends | scripts/generate_postage.py:160-166 | on shipments all refunded already, the later stages and their refund sweep leave the shipments as they are and write what the stages write |
| Pipeline.StagesAfterRefundNotes | scripts/generate_postage.py:160-166 | on shipments all refunded already, when every note can be rendered, one note per row follows the files written before, named after the shipment of its index |
| Pipeline.FinishCompletes | scripts/generate_postage.py:160-163 | when the later stages complete, every report line carries its shipment's tracking code and the path of a merged document that was written |
| Pipeline.AfterPurchase | scripts/generate_postage.py:160-166 | after the purchase, a failure of notes, merge or report causes exactly one further refund sweep over the whole list, and all shipments end RefundAttempted. Without such a failure the shipments are unchanged and the carrier is not called |
| Pipeline.RunRaisesOnlyBeforeSpending | scripts/generate_postage.py:144-158 | `run` raises iff the origin address, the parcel, the CSV path or a shipment creation fails. It then made no buy, no refund and wrote no file; after the two look-ups of lines 146 and 152, which the call log leaves out, its only carrier calls are creates for the first rows in order. A failed pre-check means nothing changed at all |
| Pipeline.RunPurchased | scripts/generate_postage.py:158-159 | after creation and purchase: on a purchase failure at k, buys 0..k were followed by refunds of all n shipments. Otherwise n buys happened and every shipment is Purchased |
| Pipeline.RunShipments | scripts/generate_postage.py:144-166 | a run that returns passed the pre-checks and keeps one shipment per row; all end Purchased with the carrier's codes when nothing failed, and RefundAttempted when anything did |
| Pipeline.RunCalls | scripts/generate_postage.py:144-166 | the carrier calls of a run that returns, after the two look-ups of lines 146 and 152, which the call log leaves out: n creates; buys up to the purchase failure or all n; a whole-list refund sweep if the purchase failed; another if a later stage failed |
| Pipeline.RunPurchaseFailedAt | scripts/generate_postage.py:158-166 | a run whose purchase first fails at k returns that failure after running the later stages on the refunded shipments, those up to k with the carrier's codes and the rest with none, with the labels of 0..k-1, then the empty label k if its download failed after the file was opened, the only files written by then |
| Pipeline.RunAfterPurchaseFailure | scripts/generate_postage.py:158-166 | a purchase failure at k does not end the run: it returns with failure k, every shipment ends RefundAttempted with tracking codes as above, and the labels of 0..k-1, with the empty label k if one was left, stay the first files written |
| Pipeline.RunAfterPurchaseFailureNotes | scripts/generate_postage.py:158-161 | after a purchase failure at k, when every note renders, one note per row follows those labels and any empty label k, named after its shipment's final tracking code, "None" for the rows never bought |
| Pipeline.RunAfterPurchaseFailureStops | scripts/generate_postage.py:158-166 | after a purchase failure at k, the labels on disk stop at m, which is k, or k+1 when an empty label k was left. When m is a row index and no file of label m's name was there before the run, the later stages fail in the notes loop or at a merge of index m or earlier. The run returns both failures, the report is not written, and after the labels of 0..m-1 only notes and merged documents follow |
| Pipeline.RunAfterPurchaseFailureRefundsTwice | scripts/generate_postage.py:158-166 | in such a run the carrier sees the creates, buys 0..k, then two refund sweeps over the whole list: the one of `purchase_postage` and the one of `run`'s `except` clause |
| Pipeline.RunAfterLastLabelLeftEmpty | scripts/generate_postage.py:158-166 | when only the last download fails, and after line 73 opened the file, every row has a label, the last one empty. When every note renders and `pdfjam` merges every pair, the notes and merged documents of all rows are written. When the report is written too, the run returns the purchase failure alone, with no second sweep and a report line for each of the refunded shipments |
| Pipeline.RunReportAligned | scripts/generate_postage.py:136-141 | in a run where nothing failed, report line k+1 carries the tracking code the carrier returned for shipment k and the path of merged document k, and that document was written |
| Pipeline.RunWritten | scripts/generate_postage.py:144-166 | in a run where nothing failed, the files written are exactly all labels in index order, then all notes, then all merged documents, then the report |
| Pipeline.StageFilesAgree | scripts/generate_postage.py:113-123 | for files laid out label-note-merge under the carrier's codes, each merge's inputs are the paths of the label and the note of its own index, and all three were written |
| Pipeline.RunMergesReadWrittenFiles | scripts/generate_postage.py:113-123 | in a run where nothing failed, the `pdfjam` call of index j reads the label path of index j and the note path of index j, under the tracking code bought for j, and both files, as well as the merged one, were written |
| Fulfilment.PostageRun.GenerateShipments | scripts/generate_postage.py:43-60 | the loop ends in the state and result of `Pipeline.CreateShipments`, so its requests carry the state as line 55 computes it |
| Fulfilment.PostageRun.RefundPostage | scripts/generate_postage.py:32-40 | the loop ends in the state of `Pipeline.RefundFrom` from index 0 |
| Fulfilment.PostageRun.PurchasePostage | scripts/generate_postage.py:63-83 | the loop and its refund handler end in the state and failure index of `Pipeline.Purchase` |
| Fulfilment.PostageRun.GenerateNotes | scripts/generate_postage.py:86-106 | the loop ends in the state and failure of `Pipeline.NotesFrom` from row 0 |
| Fulfilment.PostageRun.MergeLabelsAndNotes | scripts/generate_postage.py:109-123 | the loop ends in the state and failure of `Pipeline.MergeFrom` from index 0, failing at the first index whose label or note is missing or whose `pdfjam` call fails |
| Fulfilment.PostageRun.WriteResults | scripts/generate_postage.py:126-141 | the method ends in the state and failure of `Pipeline.WriteResults` |
| Fulfilment.PostageRun.Run | scripts/generate_postage.py:144-166 | the method ends in the state and outcome of `Pipeline.Run` |

## Left out

- EasyPost calls (`Address.retrieve`, `Parcel.retrieve`, `Shipment.create`, `lowest_rate`, `buy`, `refund`), the label download with `urllib.request.urlopen`, reportlab rendering and `pdfjam`. These are network or external tools, so they are per-index outcomes in `Environment`. The choice of the lowest Priority rate is inside the carrier and appears only as the tracking code bought. A logged `Buy(i)` call stands for the whole purchase attempt of line 68, rate selection included, so it is logged even when `lowest_rate` fails before `buy` is reached.
- File contents, directory creation and `os.path.exists`. The model records which files are written and in what order, not their bytes.
- CSV parsing and quoting in `iterate_csv` and `csv.DictWriter`. Rows are given maps; a report line is its sequence of cells. Each stage that re-reads the CSV is given the same rows.
- `argparse`, the `easypost.api_key` assignment, the unused `remote_tempfile` helper, and every `print`. `print` is also how failures are reported; the model returns them as `Failure` values instead.
- Text.Upper: models Python's case mapping for the Latin-1 range only (U+0000 to U+00FF, with 'ß' to "SS", 'ÿ' to 'Ÿ' and 'µ' to 'Μ'); every character above U+00FF is kept as it is, because the full Unicode tables are not modelled.
- The corrected `Text.NormalizeState` stands on its own: the requests carry line 55 as written. The two agree unless one of the first two characters is 'ß' (see Findings and `Text.NormalizeStateAgrees`).
- Text.NormalizeStateIdempotent: proved of the corrected normalisation; line 55 as written is not idempotent (see Findings).
- Text.ZFillShape: stated for digit strings only. The sign handling of `zfill` never arises, since an index is never negative.
- Refund outcomes are fixed per index, so a shipment refunded twice in one run (after a purchase failure and again after a later failure) gets the same answer both times.
- Artifacts are recorded by kind, index and tracking code, and their paths are derived from those. A shipment never bought has tracking code `None`, which names its files with the text "None" and is written as "" in the report. A real tracking code "None" would give the same file names (`Artifacts.MissingCodeNamedNone`).
- Pipeline.RunAfterPurchaseFailureStops and Pipeline.RunAfterPurchaseFailureRefundsTwice assume that no file named like label m, the first label the purchase did not write, was there before the run. With such a stale file `pdfjam` would merge it; the model allows that case but these two lemmas do not cover it. The case where m is past the last row is covered by `Pipeline.RunAfterLastLabelLeftEmpty` instead.
- The look-ups `easypost.Address.retrieve` (line 146) and `easypost.Parcel.retrieve` (line 152) are carrier calls, but the model has them only as the outcomes `originFound` and `parcelFound`; they are not entries of the call log. So `Pipeline.RunCalls` and `Pipeline.RunRaisesOnlyBeforeSpending` state the log of the shipment calls that follow them.
- A shipment request also carries the origin address and the parcel looked up at lines 146-152 (`from_address` and `parcel`, lines 48-49). The model's `Request` leaves both out, because they are the same for every row of a run.
- An empty label file is recorded like any other label: the model does not know a file's bytes, so whether `pdfjam` accepts the empty label is the per-index outcome `merged`.
- Pipeline.PurchaseStopsAtFirstFailure and Pipeline.PurchaseFailureRefundsWholeList assume that every shipment is still Created when the purchase starts, which is how `run` calls `purchase_postage`.
- Behaviours of the code that the model keeps as they are:
  - line 83 refunds the whole list, including the shipments never bought (`Pipeline.PurchaseFailureRefundsWholeList`);
  - lines 80-83 catch the purchase error and `run` goes on at lines 160-163, so the notes still run afterwards (`Pipeline.RunAfterPurchaseFailure`); the merge of the first index without a label then fails, so the report is never written and `run` refunds the whole list a second time (`Pipeline.RunAfterPurchaseFailureStops`);
  - line 73 opens the label file before line 78 reads the download, so a download that fails in between leaves an empty label file (`Pipeline.FailedLabel`); when that happens to the last row only, every merge has its inputs, and if `pdfjam` accepts them the report is written for shipments that were all refunded (`Pipeline.RunAfterLastLabelLeftEmpty`);
  - line 129 opens and truncates the report before any line is written, so a row without a shipment or with a column beyond the header's leaves a report of the header and the lines before it, and `run` then refunds the whole list (`Pipeline.WriteResultsPartial`);
  - line 55 cuts the state to two characters before upper-casing it, without checking that it is a state code, and the requests carry that value (`Text.NormalizeStateAsWritten`).

## Findings

| source | as written | input that shows it | evidently intended | confidence | as-written member | corrected member |
|---|---|---|---|---|---|---|
| scripts/generate_postage.py:55 | the state is cut to two characters and then upper-cased, and upper-casing can lengthen it | a State of "ßa" is sent as "SSA", three characters; normalising "SSA" again gives "SS" | upper-case first, then cut: at most two characters, and normalising twice changes nothing | low; not executed | Text.NormalizeStateAsWrittenTooLong | Text.NormalizeState |

=== FILE: artifacts.dfy ===
/**
 * Names of the files the pipeline writes: one label, one note and one merged
 * document per row, named by the zero-padded row index and the shipment's
 * tracking code, and the reconciliation report.
 */
module Artifacts {
  import opened Wrappers
  import opened Text

  /** How `"{1}".format(shipment.tracking_code)` renders the tracking code; a shipment never bought has none. */
  function TrackingText(tracking: Option<string>): string {
    match tracking
    case Some(code) => code
    case None => "None"
  }

  /** `<dir>/ROW_<index, zero-padded to 3>_<tracking code>_<kind>.pdf` */
  function ArtifactPath(dir: string, index: nat, tracking: string, kind: string): string {
    dir + "/ROW_" + Pad3(index) + "_" + tracking + "_" + kind + ".pdf"
  }

  function LabelPath(index: nat, tracking: Option<string>): string {
    ArtifactPath("labels", index, TrackingText(tracking), "LABEL")
  }

  function NotePath(index: nat, tracking: Option<string>): string {
    ArtifactPath("notes", index, TrackingText(tracking), "NOTE")
  }

  function MergedPath(index: nat, tracking: Option<string>): string {
    ArtifactPath("results", index, TrackingText(tracking), "LABEL_AND_NOTE")
  }

  const ResultsPath: string := "results/compiled_results.csv"

  /** Position of the first '_' in `s`, or `|s|` when there is none. */
  function UnderscoreAt(s: string): (k: nat)
    ensures k <= |s|
    ensures k < |s| ==> s[k] == '_'
    ensures forall j :: 0 <= j < k ==> s[j] != '_'
  {
    if s == [] then 0
    else if s[0] == '_' then 0
    else 1 + UnderscoreAt(s[1..])
  }

  /** In `digits + "_" + rest`, the first '_' is the one right after the digits. */
  lemma DigitsEndAtUnderscore(digits: string, rest: string)
    requires AllDigits(digits)
    ensures UnderscoreAt(digits + "_" + rest) == |digits|
  {
    var s := digits + "_" + rest;
    var k := UnderscoreAt(s);
    assert s[|digits|] == '_';
    assert forall j :: 0 <= j < |digits| ==> s[j] == digits[j];
  }

  /** `digits + "_" + rest` splits back into its two parts. */
  lemma SplitAfterDigits(d1: string, r1: string, d2: string, r2: string)
    requires AllDigits(d1) && AllDigits(d2)
    requires d1 + "_" + r1 == d2 + "_" + r2
    ensures d1 == d2 && r1 == r2
  {
    var s := d1 + "_" + r1;
    DigitsEndAtUnderscore(d1, r1);
    DigitsEndAtUnderscore(d2, r2);
    assert d1 == s[..|d1|] && r1 == s[|d1| + 1..];
    assert d2 == s[..|d2|] && r2 == s[|d2| + 1..];
  }

  /**
   * An artifact name determines its row index and tracking code: two
   * artifacts of one kind written for different rows, or with different
   * tracking codes, never share a file name, for every index (from 1000 on
   * the padded index is simply wider, and digits never contain '_').
   */
  lemma ArtifactPathInjective(dir: string, kind: string, i: nat, t: string, j: nat, u: string)
    requires ArtifactPath(dir, i, t, kind) == ArtifactPath(dir, j, u, kind)
    ensures i == j && t == u
  {
    var tail := "_" + kind + ".pdf";
    var x := AfterPrefix(dir, i, t, kind);
    var y := AfterPrefix(dir, j, u, kind);
    var prefix := dir + "/ROW_";
    assert x == (prefix + x)[|prefix|..];
    assert y == (prefix + y)[|prefix|..];
    Pad3Shape(i);
    Pad3Shape(j);
    SplitAfterDigits(Pad3(i), t + tail, Pad3(j), u + tail);
    Pad3Injective(i, j);
    assert t == (t + tail)[..|t|];
    assert u == (u + tail)[..|u|];
  }

  /** What follows `<dir>/ROW_` in an artifact name, grouped as index, '_', rest. */
  function AfterPrefix(dir: string, i: nat, t: string, kind: string): (x: string)
    ensures x == Pad3(i) + "_" + (t + ("_" + kind + ".pdf"))
    ensures ArtifactPath(dir, i, t, kind) == (dir + "/ROW_") + x
  {
    var p := ArtifactPath(dir, i, t, kind);
    var prefix := dir + "/ROW_";
    var x := Pad3(i) + "_" + (t + ("_" + kind + ".pdf"));
    assert p == prefix + x;
    x
  }

  /**
   * For a row index below 1000 the index field of an artifact name is the
   * three characters after `<dir>/ROW_`, all digits, reading back as the
   * index, and followed by '_'.
   */
  lemma ArtifactPathIndexField(dir: string, i: nat, t: string, kind: string)
    requires i < 1000
    ensures var p := ArtifactPath(dir, i, t, kind);
      |p| > |dir| + 8 && p[|dir| + 8] == '_' &&
      AllDigits(p[|dir| + 5..|dir| + 8]) && ParseDecimal(p[|dir| + 5..|dir| + 8]) == i
  {
    var p := ArtifactPath(dir, i, t, kind);
    Pad3Shape(i);
    assert p == (dir + "/ROW_") + Pad3(i) + ("_" + t + "_" + kind + ".pdf");
    assert p[|dir| + 5..|dir| + 8] == Pad3(i);
  }

  /** An artifact name starts with its directory and a '/'. */
  lemma ArtifactPathStart(dir: string, i: nat, t: string, kind: string)
    ensures var p := ArtifactPath(dir, i, t, kind); |p| > |dir| + 8 && p[..|dir| + 1] == dir + "/"
  {
    var p := ArtifactPath(dir, i, t, kind);
    var x := AfterPrefix(dir, i, t, kind);
    Pad3Shape(i);
    assert p == (dir + "/") + ("ROW_" + x);
  }

  /**
   * A shipment never bought is named with the text "None", so its files
   * have the names a shipment with the tracking code "None" would get.
   */
  lemma MissingCodeNamedNone(i: nat)
    ensures LabelPath(i, None) == LabelPath(i, Some("None"))
    ensures NotePath(i, None) == NotePath(i, Some("None"))
    ensures MergedPath(i, None) == MergedPath(i, Some("None"))
  {
  }

  /** Labels, notes, merged documents and the report never overwrite one another. */
  lemma ArtifactKindsDistinct(i: nat, t: Option<string>, j: nat, u: Option<string>)
    ensures LabelPath(i, t) != NotePath(j, u)
    ensures LabelPath(i, t) != MergedPath(j, u)
    ensures NotePath(i, t) != MergedPath(j, u)
    ensures MergedPath(i, t) != ResultsPath
    ensures LabelPath(i, t) != ResultsPath
    ensures NotePath(i, t) != ResultsPath
  {
    ArtifactPathStart("labels", i, TrackingText(t), "LABEL");
    ArtifactPathStart("notes", i, TrackingText(t), "NOTE");
    ArtifactPathStart("notes", j, TrackingText(u), "NOTE");
    ArtifactPathStart("results", i, TrackingText(t), "LABEL_AND_NOTE");
    ArtifactPathStart("results", j, TrackingText(u), "LABEL_AND_NOTE");
    assert LabelPath(i, t)[0] == 'l';
    assert NotePath(i, t)[0] == 'n' && NotePath(j, u)[0] == 'n';
    assert MergedPath(j, u)[0] == 'r';
    var m := MergedPath(i, t);
    assert m == "results/ROW_" + AfterPrefix("results", i, TrackingText(t), "LABEL_AND_NOTE");
    assert m[8] == 'R';
    assert ResultsPath[0] == 'r' && ResultsPath[8] == 'c';
  }
}

=== FILE: fulfilment.dfy ===
/**
 * The pipeline of `scripts/generate_postage.py` as the program runs it: one
 * object holding what a run has changed so far (the shipment list, the
 * carrier calls made, the files written and the report lines), and one
 * method per stage whose loop updates those fields in place. Each method is
 * proved to end in the state, and with the result, that the stage's
 * function in module Pipeline gives for the state it started from; what is
 * proved about those functions therefore holds of the methods.
 */
module Fulfilment {
  import opened Wrappers
  import opened Report
  import opened Pipeline

  class PostageRun {
    /** The outcomes of the carrier and the tools for this run. */
    const env: Environment
    var shipments: seq<Shipment>
    var calls: seq<Call>
    var written: seq<Artifact>
    var report: seq<seq<string>>

    /** The fields as one value of the model. */
    function Snapshot(): World
      reads this
    {
      World(shipments, calls, written, report)
    }

    /** A run that has done nothing yet. */
    constructor (env: Environment)
      ensures this.env == env
      ensures Snapshot() == World([], [], [], [])
    {
      this.env := env;
      shipments := [];
      calls := [];
      written := [];
      report := [];
    }

    /**
     * `generate_shipments`: for each row in order, build the request and ask
     * the carrier to create the shipment; a missing column or a rejection
     * stops the loop with that row's error. Only the carrier call log changes.
     */
    method GenerateShipments(rows: seq<Row>) returns (result: Result<seq<Shipment>, Failure>)
      modifies this
      ensures (Snapshot(), result) == CreateShipments(rows, env, old(Snapshot()))
    {
      var made: seq<Shipment> := [];
      var i := 0;
      while i < |rows|
        invariant i <= |rows|
        invariant CreateFrom(rows, env, i, Snapshot(), made) == CreateShipments(rows, env, old(Snapshot()))
        decreases |rows| - i
      {
        if !HasDestination(rows[i]) {
          return Failure(MissingField(i));
        }
        calls := calls + [Create(i)];
        if !env.accepts(i) {
          return Failure(ShipmentRejected(i));
        }
        made := made + [NewShipment(rows, i)];
        i := i + 1;
      }
      return Success(made);
    }

    /**
     * `refund_postage`: request a refund for every shipment in order; a
     * failed request is only reported.
     */
    method RefundPostage()
      modifies this
      ensures Snapshot() == RefundFrom(old(Snapshot()), env, 0)
    {
      var i := 0;
      while i < |shipments|
        invariant i <= |shipments|
        invariant RefundFrom(Snapshot(), env, i) == RefundFrom(old(Snapshot()), env, 0)
        decreases |shipments| - i
      {
        calls := calls + [Refund(i, env.refunds(i))];
        shipments := shipments[i := shipments[i].(status := RefundAttempted)];
        i := i + 1;
      }
    }

    /**
     * `purchase_postage`: for each shipment in order, buy the lowest rate and
     * save the label; the first failure ends the loop, leaving an empty label
     * file when the download failed after the file was opened, is reported
     * with its index and answered by a refund sweep over the whole list.
     */
    method PurchasePostage() returns (failedAt: Option<nat>)
      modifies this
      ensures (Snapshot(), failedAt) == Purchase(old(Snapshot()), env)
    {
      failedAt := None;
      var i := 0;
      while i < |shipments|
        invariant i <= |shipments|
        invariant PurchaseFrom(Snapshot(), env, i) == PurchaseFrom(old(Snapshot()), env, 0)
        decreases |shipments| - i
      {
        var code := env.buy(i);
        calls := calls + [Buy(i)];
        if code.None? {
          failedAt := Some(i);
          break;
        }
        shipments := shipments[i := Bought(shipments[i], code.value)];
        if !env.labelSaved(i) {
          if env.labelOpened(i) {
            written := written + [LabelFile(i, code)];
          }
          failedAt := Some(i);
          break;
        }
        written := written + [LabelFile(i, code)];
        i := i + 1;
      }
      if failedAt.Some? {
        RefundPostage();
      }
    }

    /**
     * `generate_notes`: for each row in order, render the note for the
     * shipment of the same index and save it; a missing shipment, a missing
     * column or a rendering failure stops the loop.
     */
    method GenerateNotes(rows: seq<Row>) returns (failure: Option<Failure>)
      modifies this
      ensures (Snapshot(), failure) == NotesFrom(rows, old(Snapshot()), env, 0)
    {
      var i := 0;
      while i < |rows|
        invariant i <= |rows|
        invariant NotesFrom(rows, Snapshot(), env, i) == NotesFrom(rows, old(Snapshot()), env, 0)
        decreases |rows| - i
      {
        if i >= |shipments| {
          return Some(NoShipment(i));
        }
        if !HasNoteFields(rows[i]) {
          return Some(MissingField(i));
        }
        if !env.noteRendered(i) {
          return Some(RenderFailed(i));
        }
        written := written + [NoteFile(i, shipments[i].tracking, NoteFor(rows[i]).value)];
        i := i + 1;
      }
      return None;
    }

    /**
     * `merge_labels_and_notes`: for each shipment in order, merge its label
     * and its note into one document; the first failure of the merge tool,
     * a missing input file included, stops the loop.
     */
    method MergeLabelsAndNotes() returns (failure: Option<Failure>)
      modifies this
      ensures (Snapshot(), failure) == MergeFrom(old(Snapshot()), env, 0)
    {
      var i := 0;
      while i < |shipments|
        invariant i <= |shipments|
        invariant MergeFrom(Snapshot(), env, i) == MergeFrom(old(Snapshot()), env, 0)
        decreases |shipments| - i
      {
        if !MergeOk(written, shipments, env, i) {
          return Some(MergeFailed(i));
        }
        written := written + [MergedOf(shipments, i)];
        i := i + 1;
      }
      return None;
    }

    /**
     * `write_results`: open the report file, then for each row write (before
     * the first row) the header and then the row's line with the tracking
     * code and the merged-document path of the shipment of the same index.
     */
    method WriteResults(rows: seq<Row>) returns (failure: Option<Failure>)
      modifies this
      ensures (Snapshot(), failure) == Pipeline.WriteResults(rows, old(Snapshot()), env)
    {
      if !env.reportOpened {
        return Some(ReportUnwritable);
      }
      written := written + [ReportFile];
      report := [];
      if rows == [] {
        return None;
      }
      var header := Header(rows[0]);
      report := [header];
      var i := 0;
      while i < |rows|
        invariant i <= |rows|
        invariant ReportFrom(rows, header, Snapshot(), i) == Pipeline.WriteResults(rows, old(Snapshot()), env)
        decreases |rows| - i
      {
        if i >= |shipments| {
          return Some(NoShipment(i));
        }
        var line := ReportLine(header, rows[i], i, shipments[i].tracking);
        if line.None? {
          return Some(UnexpectedField(i));
        }
        report := report + [line.value];
        i := i + 1;
      }
      return None;
    }

    /**
     * `run`: resolve the origin address and the parcel and check the CSV path,
     * create the shipments, purchase, then notes, merge and report; a failure
     * of the last three is answered by one refund sweep.
     */
    method Run(rows: seq<Row>) returns (outcome: Outcome)
      modifies this
      ensures (Snapshot(), outcome) == Pipeline.Run(rows, env, old(Snapshot()))
    {
      if !env.originFound {
        return Raised(OriginNotFound);
      }
      if !env.parcelFound {
        return Raised(ParcelNotFound);
      }
      if !env.csvExists {
        return Raised(CsvMissing);
      }
      var created := GenerateShipments(rows);
      if created.Failure? {
        return Raised(created.error);
      }
      shipments := created.value;
      var purchaseFailure := PurchasePostage();
      var bought := Snapshot();
      var stageFailure := GenerateNotes(rows);
      if stageFailure.None? {
        stageFailure := MergeLabelsAndNotes();
        if stageFailure.None? {
          stageFailure := WriteResults(rows);
        }
      }
      assert (Snapshot(), stageFailure) == Finish(rows, bought, env);
      if stageFailure.Some? {
        RefundPostage();
      }
      return Returned(purchaseFailure, stageFailure);
    }
  }
}

=== FILE: pipeline.dfy ===
/**
 * The fulfilment pipeline of `scripts/generate_postage.py` as a state machine
 * over an index-aligned sequence of shipments. The carrier, the label
 * download, the note renderer, the merge tool and the report file are
 * oracles: an `Environment` fixes, per row index, whether each of them
 * succeeds. Every stage is a function of the world before it; the class in
 * module Fulfilment runs the same stages as loops and is proved equal to
 * these functions.
 */
module Pipeline {
  import opened Wrappers
  import opened Text
  import opened Artifacts
  import opened Report

  /** The row has every column `generate_shipments` reads to build the destination address. */
  predicate HasDestination(row: Row) {
    "SendTo" in row && "Address" in row && "Address2" in row && "City" in row && "State" in row && "Zip" in row
  }

  /** The row has every column `generate_notes` prints on the note. */
  predicate HasNoteFields(row: Row) {
    "CBI Message" in row && "SendingFrom" in row && "Generic Message" in row
  }

  datatype Address = Address(name: string, street1: string, street2: string, city: string, state: string, zip: string)

  /**
   * What `generate_shipments` asks the carrier to create for one row. The
   * origin address and the parcel, the same for every row, are left out.
   */
  datatype Request = Request(to: Address, verifyStrict: seq<string>, labelSize: string, labelFormat: string)

  /**
   * The shipment request for one row: none (a KeyError) when the row lacks
   * one of the address columns; otherwise addressed to the row, with the
   * state cut to two characters and upper-cased as line 55 does (see
   * `NormalizeStateAsWritten`) and the fixed 4x6 PDF label options.
   */
  function RequestFor(row: Row): Option<Request> {
    if HasDestination(row) then
      var to := Address(row["SendTo"], row["Address"], row["Address2"], row["City"], NormalizeStateAsWritten(row["State"]), row["Zip"]);
      Some(Request(to, ["delivery"], "4x6", "PDF"))
    else None
  }

  /** The three texts drawn on a note. */
  datatype Note = Note(message: string, sender: string, generic: string)

  /** The note for one row: none (a KeyError) when the row lacks one of the note columns. */
  function NoteFor(row: Row): Option<Note> {
    if HasNoteFields(row) then Some(Note(row["CBI Message"], row["SendingFrom"], row["Generic Message"]))
    else None
  }

  /** Where a shipment is in its life: created, bought, or refund requested. */
  datatype Status = Created | Purchased | RefundAttempted

  datatype Shipment = Shipment(request: Request, tracking: Option<string>, status: Status)

  /**
   * The outcomes of everything the pipeline does not compute itself. Per row
   * index: whether the carrier creates the shipment, the tracking code the
   * lowest Priority rate's purchase yields (None when selecting or buying
   * fails), whether the label is downloaded and saved, when it is not
   * whether the label file had already been opened for writing, whether a refund
   * request succeeds, whether the note is rendered and saved and whether
   * `pdfjam` merges label and note when both files are there. Once per run: whether the origin address
   * and the parcel resolve, whether the CSV path exists and whether the
   * report file can be opened.
   */
  datatype Environment = Environment(
    originFound: bool,
    parcelFound: bool,
    csvExists: bool,
    accepts: nat -> bool,
    buy: nat -> Option<string>,
    labelSaved: nat -> bool,
    labelOpened: nat -> bool,
    refunds: nat -> bool,
    noteRendered: nat -> bool,
    merged: nat -> bool,
    reportOpened: bool)

  /**
   * A call made to the carrier, in the order made. `Buy(i)` is the purchase
   * attempt for shipment i, rate selection included: it is logged even when
   * selecting the lowest rate fails before the purchase itself is sent.
   */
  datatype Call = Create(row: nat) | Buy(index: nat) | Refund(index: nat, ok: bool)

  /**
   * A file written, named by the row index and tracking code it belongs to
   * (see `Path`), with what it was made from.
   */
  datatype Artifact =
    | LabelFile(index: nat, tracking: Option<string>)
    | NoteFile(index: nat, tracking: Option<string>, note: Note)
    | MergedFile(index: nat, tracking: Option<string>)
    | ReportFile
  {
    /** Where the file is written. */
    function Path(): string {
      match this
      case LabelFile(i, t) => LabelPath(i, t)
      case NoteFile(i, t, _) => NotePath(i, t)
      case MergedFile(i, t) => MergedPath(i, t)
      case ReportFile => ResultsPath
    }

    /** The files `pdfjam` reads to make a merged document: the label, then the note. */
    function Inputs(): seq<string> {
      match this
      case MergedFile(i, t) => [LabelPath(i, t), NotePath(i, t)]
      case _ => []
    }
  }

  /**
   * What one run has done so far: the shipment list, the carrier calls, the
   * files written and the lines of the report file.
   */
  datatype World = World(shipments: seq<Shipment>, calls: seq<Call>, written: seq<Artifact>, report: seq<seq<string>>)

  /** Why a stage stopped. */
  datatype Failure =
    | OriginNotFound
    | ParcelNotFound
    | CsvMissing
    | MissingField(index: nat)
    | ShipmentRejected(index: nat)
    | NoShipment(index: nat)
    | RenderFailed(index: nat)
    | MergeFailed(index: nat)
    | ReportUnwritable
    | UnexpectedField(index: nat)

  /**
   * How `run` ends: it raises (before any postage is bought), or it returns,
   * possibly after a purchase failure at some index and a failure in the
   * later stages, both of which it only reports.
   */
  datatype Outcome = Raised(cause: Failure) | Returned(purchaseFailure: Option<nat>, stageFailure: Option<Failure>)

  // ---------------------------------------------------------------- shapes of call and file sequences

  function Creates(from: nat, to: nat): (s: seq<Call>)
    requires from <= to
    ensures |s| == to - from && forall j :: 0 <= j < |s| ==> s[j] == Create(from + j)
  {
    seq(to - from, j requires 0 <= j => Create(from + j))
  }

  function Buys(from: nat, to: nat): (s: seq<Call>)
    requires from <= to
    ensures |s| == to - from && forall j :: 0 <= j < |s| ==> s[j] == Buy(from + j)
  {
    seq(to - from, j requires 0 <= j => Buy(from + j))
  }

  function Refunds(env: Environment, from: nat, to: nat): (s: seq<Call>)
    requires from <= to
    ensures |s| == to - from && forall j :: 0 <= j < |s| ==> s[j] == Refund(from + j, env.refunds(from + j))
  {
    seq(to - from, j requires 0 <= j => Refund(from + j, env.refunds(from + j)))
  }

  function Labels(env: Environment, from: nat, to: nat): (s: seq<Artifact>)
    requires from <= to
    ensures |s| == to - from && forall j :: 0 <= j < |s| ==> s[j] == LabelFile(from + j, env.buy(from + j))
  {
    seq(to - from, j requires 0 <= j => LabelFile(from + j, env.buy(from + j)))
  }


  /** Row j's note can be written: there is a shipment j, the row has the note columns and rendering succeeds. */
  predicate NoteReady(rows: seq<Row>, ships: seq<Shipment>, env: Environment, j: nat)
    requires j < |rows|
  {
    j < |ships| && HasNoteFields(rows[j]) && env.noteRendered(j)
  }

  /** The notes of rows `from` to `to`, each named after the shipment of the same index. */
  function Notes(rows: seq<Row>, ships: seq<Shipment>, env: Environment, from: nat, to: nat): seq<Artifact>
    requires from <= to <= |rows|
    requires forall j :: from <= j < to ==> NoteReady(rows, ships, env, j)
    decreases |rows| - from
  {
    if from == to then []
    else
      assert NoteReady(rows, ships, env, from);
      [NoteFile(from, ships[from].tracking, NoteFor(rows[from]).value)] + Notes(rows, ships, env, from + 1, to)
  }

  function MergedOf(ships: seq<Shipment>, j: nat): Artifact
    requires j < |ships|
  {
    MergedFile(j, ships[j].tracking)
  }

  function Merges(ships: seq<Shipment>, from: nat, to: nat): (s: seq<Artifact>)
    requires from <= to <= |ships|
    ensures |s| == to - from && forall j :: 0 <= j < |s| ==> s[j] == MergedOf(ships, from + j)
  {
    seq(to - from, j requires 0 <= j < to - from => MergedOf(ships, from + j))
  }

  lemma AppendAssoc<T>(a: seq<T>, b: seq<T>, c: seq<T>)
    ensures a + b + c == a + (b + c)
  {
  }

  lemma CreatesCons(from: nat, to: nat)
    requires from < to
    ensures [Create(from)] + Creates(from + 1, to) == Creates(from, to)
  {
    assert ([Create(from)] + Creates(from + 1, to))[1..] == Creates(from + 1, to);
  }

  lemma BuysCons(from: nat, to: nat)
    requires from < to
    ensures [Buy(from)] + Buys(from + 1, to) == Buys(from, to)
  {
    assert ([Buy(from)] + Buys(from + 1, to))[1..] == Buys(from + 1, to);
  }

  lemma RefundsCons(env: Environment, from: nat, to: nat)
    requires from < to
    ensures [Refund(from, env.refunds(from))] + Refunds(env, from + 1, to) == Refunds(env, from, to)
  {
    assert ([Refund(from, env.refunds(from))] + Refunds(env, from + 1, to))[1..] == Refunds(env, from + 1, to);
  }

  lemma LabelsCons(env: Environment, from: nat, to: nat)
    requires from < to
    ensures [LabelFile(from, env.buy(from))] + Labels(env, from + 1, to) == Labels(env, from, to)
  {
    assert ([LabelFile(from, env.buy(from))] + Labels(env, from + 1, to))[1..] == Labels(env, from + 1, to);
  }

  lemma MergesCons(ships: seq<Shipment>, from: nat, to: nat)
    requires from < to <= |ships|
    ensures [MergedOf(ships, from)] + Merges(ships, from + 1, to) == Merges(ships, from, to)
  {
    assert ([MergedOf(ships, from)] + Merges(ships, from + 1, to))[1..] == Merges(ships, from + 1, to);
  }

  // ---------------------------------------------------------------- generate_shipments

  predicate Creatable(rows: seq<Row>, env: Environment, j: nat)
    requires j < |rows|
  {
    HasDestination(rows[j]) && env.accepts(j)
  }

  /** The first row from `i` on that cannot be made into a shipment, or `|rows|`. */
  function FirstUncreatable(rows: seq<Row>, env: Environment, i: nat): (k: nat)
    requires i <= |rows|
    ensures i <= k <= |rows|
    ensures forall j :: i <= j < k ==> Creatable(rows, env, j)
    ensures k < |rows| ==> !Creatable(rows, env, k)
    decreases |rows| - i
  {
    if i == |rows| || !Creatable(rows, env, i) then i else FirstUncreatable(rows, env, i + 1)
  }

  function NewShipment(rows: seq<Row>, j: nat): Shipment
    requires j < |rows| && HasDestination(rows[j])
  {
    Shipment(RequestFor(rows[j]).value, None, Created)
  }

  /**
   * The loop of `generate_shipments` from row `i` on, having made `made`:
   * each row's request is built (a KeyError stops the loop) and sent to the
   * carrier (a rejection stops it too).
   */
  function CreateFrom(rows: seq<Row>, env: Environment, i: nat, w: World, made: seq<Shipment>): (World, Result<seq<Shipment>, Failure>)
    decreases |rows| - i
  {
    if i >= |rows| then (w, Success(made))
    else if !HasDestination(rows[i]) then (w, Failure(MissingField(i)))
    else
      var w' := w.(calls := w.calls + [Create(i)]);
      if env.accepts(i) then CreateFrom(rows, env, i + 1, w', made + [NewShipment(rows, i)])
      else (w', Failure(ShipmentRejected(i)))
  }

  function CreateShipments(rows: seq<Row>, env: Environment, w: World): (World, Result<seq<Shipment>, Failure>) {
    CreateFrom(rows, env, 0, w, [])
  }

  /** The error `generate_shipments` raises for a row that cannot be made into a shipment. */
  function CreateError(rows: seq<Row>, k: nat): Failure
    requires k < |rows|
  {
    if !HasDestination(rows[k]) then MissingField(k) else ShipmentRejected(k)
  }

  /** The carrier calls of the creation loop from `i`, when it stops at `k`. */
  function CreateCalls(rows: seq<Row>, i: nat, k: nat): seq<Call>
    requires i <= k <= |rows|
  {
    Creates(i, k) + (if k < |rows| && HasDestination(rows[k]) then [Create(k)] else [])
  }

  /** The creation loop stops at the first row that cannot be made into a shipment, with that row's error. */
  lemma {:induction false} CreateFromOutcome(rows: seq<Row>, env: Environment, i: nat, w: World, made: seq<Shipment>)
    requires i <= |rows|
    ensures var r := CreateFrom(rows, env, i, w, made);
      var k := FirstUncreatable(rows, env, i);
      && (r.1.Success? <==> k == |rows|)
      && (r.1.Failure? ==> r.1.error == CreateError(rows, k))
    decreases |rows| - i
  {
    if i < |rows| && Creatable(rows, env, i) {
      CreateFromOutcome(rows, env, i + 1, w.(calls := w.calls + [Create(i)]), made + [NewShipment(rows, i)]);
    }
  }

  /** The creation loop only calls the carrier: one create per row up to where it stops. */
  lemma {:induction false} CreateFromCalls(rows: seq<Row>, env: Environment, i: nat, w: World, made: seq<Shipment>)
    requires i <= |rows|
    ensures CreateFrom(rows, env, i, w, made).0 == w.(calls := w.calls + CreateCalls(rows, i, FirstUncreatable(rows, env, i)))
    decreases |rows| - i
  {
    if i < |rows| && Creatable(rows, env, i) {
      var k := FirstUncreatable(rows, env, i + 1);
      var w' := w.(calls := w.calls + [Create(i)]);
      var made' := made + [NewShipment(rows, i)];
      assert CreateFrom(rows, env, i, w, made) == CreateFrom(rows, env, i + 1, w', made');
      assert FirstUncreatable(rows, env, i) == k;
      CreateFromCalls(rows, env, i + 1, w', made');
      if i + 1 < k {
        CreatesCons(i, k);
      }
      assert [Create(i)] + CreateCalls(rows, i + 1, k) == CreateCalls(rows, i, k);
      AppendAssoc(w.calls, [Create(i)], CreateCalls(rows, i + 1, k));
    }
  }

  lemma {:induction false} CreateFromMade(rows: seq<Row>, env: Environment, i: nat, w: World, made: seq<Shipment>)
    requires i <= |rows| && |made| == i
    ensures var r := CreateFrom(rows, env, i, w, made);
      r.1.Success? ==>
        && |r.1.value| == |rows| && r.1.value[..i] == made
        && (forall j :: i <= j < |rows| ==> Creatable(rows, env, j) && r.1.value[j] == NewShipment(rows, j))
    decreases |rows| - i
  {
    if i < |rows| && Creatable(rows, env, i) {
      var made' := made + [NewShipment(rows, i)];
      CreateFromMade(rows, env, i + 1, w.(calls := w.calls + [Create(i)]), made');
      var r := CreateFrom(rows, env, i + 1, w.(calls := w.calls + [Create(i)]), made');
      if r.1.Success? {
        assert r.1.value[..i] == r.1.value[..i + 1][..i];
      }
    }
  }

  /**
   * `generate_shipments` makes one shipment per input row, in row order: it
   * succeeds exactly when every row can be made into a shipment, and then
   * the shipment at index j is created, unbought, from row j (its destination
   * state normalised), and the carrier received one create call per row, in
   * row order. Only the carrier calls change.
   */
  lemma CreateShipmentsAligned(rows: seq<Row>, env: Environment, w: World)
    ensures var r := CreateShipments(rows, env, w);
      && r.0 == w.(calls := r.0.calls)
      && (r.1.Success? <==> forall j :: 0 <= j < |rows| ==> Creatable(rows, env, j))
      && (r.1.Success? ==>
            && |r.1.value| == |rows|
            && (forall j :: 0 <= j < |rows| ==>
                  Creatable(rows, env, j) && r.1.value[j] == NewShipment(rows, j) &&
                  r.1.value[j].status == Created && r.1.value[j].tracking == None &&
                  r.1.value[j].request == Request(
                    Address(rows[j]["SendTo"], rows[j]["Address"], rows[j]["Address2"], rows[j]["City"],
                            NormalizeStateAsWritten(rows[j]["State"]), rows[j]["Zip"]),
                    ["delivery"], "4x6", "PDF"))
            && r.0.calls == w.calls + Creates(0, |rows|))
  {
    CreateFromOutcome(rows, env, 0, w, []);
    CreateFromCalls(rows, env, 0, w, []);
    CreateFromMade(rows, env, 0, w, []);
  }

  /**
   * A failing `generate_shipments` stops at the first row that cannot be
   * made into a shipment: a missing address column (KeyError) before the
   * carrier is called for that row, a rejection after. The carrier received
   * create calls for the rows before it, and for that row only when it was
   * rejected.
   */
  lemma CreateShipmentsStopsAtFirstFailure(rows: seq<Row>, env: Environment, w: World)
    ensures var r := CreateShipments(rows, env, w);
      r.1.Failure? ==>
        && (r.1.error.MissingField? || r.1.error.ShipmentRejected?)
        && var k := r.1.error.index;
        && k < |rows| && !Creatable(rows, env, k)
        && (forall j :: 0 <= j < k ==> Creatable(rows, env, j))
        && (r.1.error.MissingField? <==> !HasDestination(rows[k]))
        && r.0.calls == w.calls + Creates(0, if r.1.error.MissingField? then k else k + 1)
  {
    CreateFromOutcome(rows, env, 0, w, []);
    CreateFromCalls(rows, env, 0, w, []);
    var k := FirstUncreatable(rows, env, 0);
    if k < |rows| && HasDestination(rows[k]) {
      assert Creates(0, k) + [Create(k)] == Creates(0, k + 1);
    }
  }

  // ---------------------------------------------------------------- purchase_postage

  /** Shipment `j` is bought and its label saved. */
  predicate Completes(env: Environment, j: nat) {
    env.buy(j).Some? && env.labelSaved(j)
  }

  /** The first index from `i` on whose purchase or label download fails, or `n`. */
  function FirstIncomplete(env: Environment, i: nat, n: nat): (k: nat)
    requires i <= n
    ensures i <= k <= n
    ensures forall j :: i <= j < k ==> Completes(env, j)
    ensures k < n ==> !Completes(env, k)
    decreases n - i
  {
    if i == n || !Completes(env, i) then i else FirstIncomplete(env, i + 1, n)
  }

  function Bought(s: Shipment, code: string): Shipment {
    s.(tracking := Some(code), status := Purchased)
  }

  /** Shipment `i` bought: the buy call made and the tracking code recorded. */
  function BuyStep(w: World, env: Environment, i: nat): World
    requires i < |w.shipments| && env.buy(i).Some?
  {
    w.(calls := w.calls + [Buy(i)], shipments := w.shipments[i := Bought(w.shipments[i], env.buy(i).value)])
  }

  /** Shipment `i` bought and its label saved. */
  function LabelStep(w: World, env: Environment, i: nat): World
    requires i < |w.shipments| && env.buy(i).Some?
  {
    var bought := BuyStep(w, env, i);
    bought.(written := bought.written + [LabelFile(i, env.buy(i))])
  }

  /**
   * What a purchase that fails at k leaves on disk for label k. The label
   * file is opened for writing before the download is read, so a download
   * that fails after the opening leaves an empty file under label k's name;
   * a failed buy, or a download that fails before, leaves nothing.
   */
  function FailedLabel(env: Environment, k: nat): seq<Artifact> {
    if env.buy(k).Some? && env.labelOpened(k) then [LabelFile(k, env.buy(k))] else []
  }

  /**
   * The loop of `purchase_postage` from index `i` on: buy the lowest rate,
   * then download and save the label; the first failure ends the loop and is
   * reported with its index, after an empty label file when the download
   * failed once the file was open.
   */
  function PurchaseFrom(w: World, env: Environment, i: nat): (World, Option<nat>)
    decreases |w.shipments| - i
  {
    if i >= |w.shipments| then (w, None)
    else if Completes(env, i) then PurchaseFrom(LabelStep(w, env, i), env, i + 1)
    else if env.buy(i).None? then (w.(calls := w.calls + [Buy(i)]), Some(i))
    else if env.labelOpened(i) then (LabelStep(w, env, i), Some(i))
    else (BuyStep(w, env, i), Some(i))
  }

  /** `purchase_postage`: the loop, and on a failure the refund sweep over the whole list. */
  function Purchase(w: World, env: Environment): (World, Option<nat>) {
    var r := PurchaseFrom(w, env, 0);
    (if r.1.Some? then RefundFrom(r.0, env, 0) else r.0, r.1)
  }

  /** The purchase loop reports the first incomplete index, if any. */
  lemma {:induction false} PurchaseFromStops(w: World, env: Environment, i: nat)
    requires i <= |w.shipments|
    ensures var k := FirstIncomplete(env, i, |w.shipments|);
      var r := PurchaseFrom(w, env, i);
      r.1 == (if k < |w.shipments| then Some(k) else None) && |r.0.shipments| == |w.shipments|
    decreases |w.shipments| - i
  {
    if i < |w.shipments| && Completes(env, i) {
      PurchaseFromStops(LabelStep(w, env, i), env, i + 1);
    }
  }

  /** What the purchase loop does to the shipments: buys i..k-1, and k if its buy succeeded. */
  lemma {:induction false} PurchaseFromShipments(w: World, env: Environment, i: nat)
    requires i <= |w.shipments|
    ensures var n := |w.shipments|;
      var k := FirstIncomplete(env, i, n);
      var after := PurchaseFrom(w, env, i).0.shipments;
      && |after| == n
      && (forall j :: i <= j < k ==> Completes(env, j) && after[j] == Bought(w.shipments[j], env.buy(j).value))
      && (forall j :: 0 <= j < n && (j < i || k < j) ==> after[j] == w.shipments[j])
      && (k < n ==> after[k] == if env.buy(k).Some? then Bought(w.shipments[k], env.buy(k).value) else w.shipments[k])
    decreases |w.shipments| - i
  {
    if i < |w.shipments| && Completes(env, i) {
      PurchaseFromShipments(LabelStep(w, env, i), env, i + 1);
    }
  }

  /** The carrier calls of the purchase loop: buys for i..k, in order, and nothing else changes but the files. */
  lemma {:induction false} PurchaseFromCalls(w: World, env: Environment, i: nat)
    requires i <= |w.shipments|
    ensures var n := |w.shipments|;
      var k := FirstIncomplete(env, i, n);
      var after := PurchaseFrom(w, env, i).0;
      after.calls == w.calls + Buys(i, if k < n then k + 1 else k) && after.report == w.report
    decreases |w.shipments| - i
  {
    var n := |w.shipments|;
    if i < n && Completes(env, i) {
      PurchaseFromCalls(LabelStep(w, env, i), env, i + 1);
      var k := FirstIncomplete(env, i + 1, n);
      BuysCons(i, if k < n then k + 1 else k);
      AppendAssoc(w.calls, [Buy(i)], Buys(i + 1, if k < n then k + 1 else k));
    }
  }

  /**
   * The files the purchase loop writes: the labels of i..k-1, in order, and
   * what a failure at k leaves of label k.
   */
  lemma {:induction false} PurchaseFromLabels(w: World, env: Environment, i: nat)
    requires i <= |w.shipments|
    ensures var k := FirstIncomplete(env, i, |w.shipments|);
      PurchaseFrom(w, env, i).0.written ==
        w.written + Labels(env, i, k) + (if k < |w.shipments| then FailedLabel(env, k) else [])
    decreases |w.shipments| - i
  {
    var n := |w.shipments|;
    if i < n && Completes(env, i) {
      PurchaseFromLabels(LabelStep(w, env, i), env, i + 1);
      var k := FirstIncomplete(env, i + 1, n);
      var left := if k < n then FailedLabel(env, k) else [];
      LabelsCons(env, i, k);
      AppendAssoc(w.written, [LabelFile(i, env.buy(i))], Labels(env, i + 1, k));
      assert w.written + [LabelFile(i, env.buy(i))] + Labels(env, i + 1, k) + left ==
        w.written + Labels(env, i, k) + left;
    } else {
      assert Labels(env, i, i) == [];
    }
  }

  /** The labels of 0..k-1 and what is left of label k are the labels of 0..m-1, m the first index without a file. */
  lemma LabelsLeft(env: Environment, k: nat)
    ensures Labels(env, 0, k) + FailedLabel(env, k) == Labels(env, 0, k + |FailedLabel(env, k)|)
  {
    if FailedLabel(env, k) != [] {
      assert (Labels(env, 0, k) + FailedLabel(env, k))[k] == LabelFile(k, env.buy(k));
    }
  }

  /**
   * The purchase loop buys in index order and stops at the first failure k:
   * shipments 0..k-1 are bought with their labels saved in order, shipment k
   * is bought only if its buy succeeded and leaves an empty label only if
   * its download failed after the file was opened, no shipment after k is
   * touched, and the carrier saw buy calls for 0..k only. Without a failure every shipment
   * is bought and every label saved.
   */
  lemma PurchaseStopsAtFirstFailure(w: World, env: Environment)
    requires forall j :: 0 <= j < |w.shipments| ==> w.shipments[j].status == Created
    ensures var r := PurchaseFrom(w, env, 0);
      var n := |w.shipments|;
      && |r.0.shipments| == n && r.0.report == w.report
      && (r.1.None? <==> forall j :: 0 <= j < n ==> Completes(env, j))
      && (r.1.None? ==>
            && (forall j :: 0 <= j < n ==> Completes(env, j) && r.0.shipments[j] == Bought(w.shipments[j], env.buy(j).value))
            && r.0.calls == w.calls + Buys(0, n)
            && r.0.written == w.written + Labels(env, 0, n))
      && (r.1.Some? ==>
            && r.1.value < n && !Completes(env, r.1.value)
            && (forall j :: 0 <= j < r.1.value ==>
                  Completes(env, j) && r.0.shipments[j] == Bought(w.shipments[j], env.buy(j).value) &&
                  r.0.shipments[j].status == Purchased)
            && (forall j :: r.1.value < j < n ==> r.0.shipments[j] == w.shipments[j] && r.0.shipments[j].status == Created)
            && (r.0.shipments[r.1.value] ==
                  if env.buy(r.1.value).Some? then Bought(w.shipments[r.1.value], env.buy(r.1.value).value)
                  else w.shipments[r.1.value])
            && (r.0.shipments[r.1.value].status == Purchased <==> env.buy(r.1.value).Some?)
            && r.0.calls == w.calls + Buys(0, r.1.value + 1)
            && r.0.written == w.written + Labels(env, 0, r.1.value) + FailedLabel(env, r.1.value))
  {
    PurchaseFromStops(w, env, 0);
    PurchaseFromShipments(w, env, 0);
    PurchaseFromCalls(w, env, 0);
    PurchaseFromLabels(w, env, 0);
  }

  // ---------------------------------------------------------------- refund_postage

  /** Shipment `i` after its refund request. */
  function RefundStep(w: World, env: Environment, i: nat): World
    requires i < |w.shipments|
  {
    w.(shipments := w.shipments[i := w.shipments[i].(status := RefundAttempted)],
       calls := w.calls + [Refund(i, env.refunds(i))])
  }

  /** The loop of `refund_postage` from index `i` on: a refund is requested for every shipment, failed or not. */
  function RefundFrom(w: World, env: Environment, i: nat): World
    decreases |w.shipments| - i
  {
    if i >= |w.shipments| then w
    else RefundFrom(RefundStep(w, env, i), env, i + 1)
  }

  lemma {:induction false} RefundFromEffect(w: World, env: Environment, i: nat)
    requires i <= |w.shipments|
    ensures var w' := RefundFrom(w, env, i);
      && |w'.shipments| == |w.shipments|
      && (forall j :: 0 <= j < i ==> w'.shipments[j] == w.shipments[j])
      && (forall j :: i <= j < |w.shipments| ==> w'.shipments[j] == w.shipments[j].(status := RefundAttempted))
      && w'.calls == w.calls + Refunds(env, i, |w.shipments|)
      && w'.written == w.written && w'.report == w.report
    decreases |w.shipments| - i
  {
    if i < |w.shipments| {
      RefundFromEffect(RefundStep(w, env, i), env, i + 1);
      RefundsCons(env, i, |w.shipments|);
      AppendAssoc(w.calls, [Refund(i, env.refunds(i))], Refunds(env, i + 1, |w.shipments|));
    }
  }

  /**
   * The refund sweep is total and ordered: every shipment of the list gets a
   * refund request, in list order, whatever the outcome of the others, and
   * ends RefundAttempted with its request and tracking code unchanged.
   */
  lemma RefundSweepTotal(w: World, env: Environment)
    ensures var w' := RefundFrom(w, env, 0);
      && |w'.shipments| == |w.shipments|
      && (forall j :: 0 <= j < |w.shipments| ==>
            w'.shipments[j].status == RefundAttempted &&
            w'.shipments[j].request == w.shipments[j].request &&
            w'.shipments[j].tracking == w.shipments[j].tracking)
      && w'.calls == w.calls + Refunds(env, 0, |w.shipments|)
      && (forall j :: 0 <= j < |w.shipments| ==> Refund(j, env.refunds(j)) in w'.calls[|w.calls|..])
      && w'.written == w.written && w'.report == w.report
  {
    RefundFromEffect(w, env, 0);
    var w' := RefundFrom(w, env, 0);
    forall j | 0 <= j < |w.shipments|
      ensures Refund(j, env.refunds(j)) in w'.calls[|w.calls|..]
    {
      assert w'.calls[|w.calls|..] == Refunds(env, 0, |w.shipments|);
      assert w'.calls[|w.calls|..][j] == Refund(j, env.refunds(j));
    }
  }

  /**
   * `purchase_postage` returns normally either way. After a failure at k it
   * has requested a refund for EVERY shipment of the list, in order, also for
   * those after k that were never bought; without a failure it requests no
   * refund and every shipment is Purchased.
   */
  lemma PurchaseFailureRefundsWholeList(w: World, env: Environment)
    requires forall j :: 0 <= j < |w.shipments| ==> w.shipments[j].status == Created
    ensures var r := Purchase(w, env);
      var n := |w.shipments|;
      && |r.0.shipments| == n
      && (r.1.Some? ==>
            && r.1.value < n
            && (forall j :: 0 <= j < n ==> r.0.shipments[j].status == RefundAttempted)
            && r.0.calls == w.calls + Buys(0, r.1.value + 1) + Refunds(env, 0, n))
      && (r.1.None? ==>
            && (forall j :: 0 <= j < n ==> r.0.shipments[j].status == Purchased && r.0.shipments[j].tracking == env.buy(j))
            && r.0.calls == w.calls + Buys(0, n))
  {
    PurchaseStopsAtFirstFailure(w, env);
    var r := PurchaseFrom(w, env, 0);
    if r.1.Some? {
      RefundSweepTotal(r.0, env);
    }
  }

  // ---------------------------------------------------------------- generate_notes

  /** The loop of `generate_notes` from row `i` on: one note per row, named after shipment i. */
  function NotesFrom(rows: seq<Row>, w: World, env: Environment, i: nat): (World, Option<Failure>)
    decreases |rows| - i
  {
    if i >= |rows| then (w, None)
    else if i >= |w.shipments| then (w, Some(NoShipment(i)))
    else if !HasNoteFields(rows[i]) then (w, Some(MissingField(i)))
    else if !env.noteRendered(i) then (w, Some(RenderFailed(i)))
    else
      var note := NoteFile(i, w.shipments[i].tracking, NoteFor(rows[i]).value);
      NotesFrom(rows, w.(written := w.written + [note]), env, i + 1)
  }

  /**
   * The notes loop changes only the files written, and completes exactly
   * when every row's note can be written; otherwise it reports a missing
   * shipment, a missing column or a rendering failure.
   */
  lemma {:induction false} NotesFromStops(rows: seq<Row>, w: World, env: Environment, i: nat)
    requires i <= |rows|
    ensures var r := NotesFrom(rows, w, env, i);
      && r.0 == w.(written := r.0.written)
      && (r.1.None? <==> forall j :: i <= j < |rows| ==> NoteReady(rows, w.shipments, env, j))
      && (r.1.Some? ==> r.1.value.NoShipment? || r.1.value.MissingField? || r.1.value.RenderFailed?)
    decreases |rows| - i
  {
    if i < |rows| && NoteReady(rows, w.shipments, env, i) {
      var note := NoteFile(i, w.shipments[i].tracking, NoteFor(rows[i]).value);
      NotesFromStops(rows, w.(written := w.written + [note]), env, i + 1);
    }
  }

  /** A completed notes loop writes one note per row, in row order. */
  lemma {:induction false} NotesFromWritten(rows: seq<Row>, w: World, env: Environment, i: nat)
    requires i <= |rows|
    requires forall j :: i <= j < |rows| ==> NoteReady(rows, w.shipments, env, j)
    ensures NotesFrom(rows, w, env, i).0.written == w.written + Notes(rows, w.shipments, env, i, |rows|)
    decreases |rows| - i
  {
    if i < |rows| {
      assert NoteReady(rows, w.shipments, env, i);
      var note := NoteFile(i, w.shipments[i].tracking, NoteFor(rows[i]).value);
      var rest := Notes(rows, w.shipments, env, i + 1, |rows|);
      NotesFromWritten(rows, w.(written := w.written + [note]), env, i + 1);
      assert Notes(rows, w.shipments, env, i, |rows|) == [note] + rest;
      AppendAssoc(w.written, [note], rest);
    }
  }

  /** Entry j of the notes of rows `from` to `to` is the note of row j, named after shipment j. */
  lemma {:induction false} NotesAt(rows: seq<Row>, ships: seq<Shipment>, env: Environment, from: nat, to: nat, j: nat)
    requires from <= j < to <= |rows|
    requires forall m :: from <= m < to ==> NoteReady(rows, ships, env, m)
    ensures NoteReady(rows, ships, env, j)
    ensures |Notes(rows, ships, env, from, to)| == to - from
    ensures Notes(rows, ships, env, from, to)[j - from] == NoteFile(j, ships[j].tracking, NoteFor(rows[j]).value)
    decreases |rows| - from
  {
    assert NoteReady(rows, ships, env, from);
    var note := NoteFile(from, ships[from].tracking, NoteFor(rows[from]).value);
    var rest := Notes(rows, ships, env, from + 1, to);
    assert Notes(rows, ships, env, from, to) == [note] + rest;
    if from + 1 < to {
      NotesAt(rows, ships, env, from + 1, to, to - 1);
    }
    if j > from {
      NotesAt(rows, ships, env, from + 1, to, j);
      assert ([note] + rest)[j - from] == rest[j - from - 1];
    }
  }

  // ---------------------------------------------------------------- merge_labels_and_notes

  /** The names of the files written, in order. */
  function Paths(written: seq<Artifact>): (p: seq<string>)
    ensures |p| == |written|
  {
    if written == [] then [] else [written[0].Path()] + Paths(written[1..])
  }

  /** Entry m of the names is the name of file m. */
  lemma {:induction false} PathsAt(written: seq<Artifact>, m: nat)
    requires m < |written|
    ensures Paths(written)[m] == written[m].Path()
    decreases m
  {
    if m > 0 {
      PathsAt(written[1..], m - 1);
    }
  }

  /** Label i and note i, named after shipment i's tracking code, are among the files written. */
  predicate InputsPresent(written: seq<Artifact>, ships: seq<Shipment>, i: nat)
    requires i < |ships|
  {
    LabelPath(i, ships[i].tracking) in Paths(written) && NotePath(i, ships[i].tracking) in Paths(written)
  }

  /** `pdfjam` succeeds for index i: both of its input files exist and it runs without error. */
  predicate MergeOk(written: seq<Artifact>, ships: seq<Shipment>, env: Environment, i: nat)
    requires i < |ships|
  {
    InputsPresent(written, ships, i) && env.merged(i)
  }

  /** The loop of `merge_labels_and_notes` from index `i` on: label i and note i merged into one document. */
  function MergeFrom(w: World, env: Environment, i: nat): (World, Option<Failure>)
    decreases |w.shipments| - i
  {
    if i >= |w.shipments| then (w, None)
    else if MergeOk(w.written, w.shipments, env, i) then MergeFrom(w.(written := w.written + [MergedOf(w.shipments, i)]), env, i + 1)
    else (w, Some(MergeFailed(i)))
  }

  /** Writing a merged document neither adds nor removes a label or a note. */
  lemma PresentAfterMerged(written: seq<Artifact>, ships: seq<Shipment>, i: nat, j: nat)
    requires i < |ships| && j < |ships|
    ensures InputsPresent(written + [MergedOf(ships, i)], ships, j) == InputsPresent(written, ships, j)
  {
    var t := ships[j].tracking;
    var m := MergedOf(ships, i);
    var before, after := Paths(written), Paths(written + [m]);
    forall x | 0 <= x < |after|
      ensures after[x] == (before + [m.Path()])[x]
    {
      PathsAt(written + [m], x);
      if x < |written| {
        PathsAt(written, x);
      }
    }
    assert after == before + [m.Path()];
    ArtifactKindsDistinct(j, t, i, ships[i].tracking);
    ArtifactKindsDistinct(i, ships[i].tracking, j, t);
  }

  /**
   * The merge loop changes only the files written: it appends the merged
   * documents from i up to where it stops, which is the end of the list or
   * the index it reports.
   */
  lemma {:induction false} MergeFromEffect(w: World, env: Environment, i: nat)
    requires i <= |w.shipments|
    ensures var r := MergeFrom(w, env, i);
      && r.0.shipments == w.shipments && r.0.calls == w.calls && r.0.report == w.report
      && (r.1.Some? ==> r.1.value.MergeFailed? && i <= r.1.value.index < |w.shipments|)
      && r.0.written == w.written + Merges(w.shipments, i, if r.1.Some? then r.1.value.index else |w.shipments|)
    decreases |w.shipments| - i
  {
    var n := |w.shipments|;
    if i < n && MergeOk(w.written, w.shipments, env, i) {
      var m := MergedOf(w.shipments, i);
      var w' := w.(written := w.written + [m]);
      MergeFromEffect(w', env, i + 1);
      var r := MergeFrom(w', env, i + 1);
      var f := if r.1.Some? then r.1.value.index else n;
      MergesCons(w.shipments, i, f);
      AppendAssoc(w.written, [m], Merges(w.shipments, i + 1, f));
    } else {
      assert Merges(w.shipments, i, i) == [];
    }
  }

  /**
   * The merge loop completes exactly when `pdfjam` succeeds for every index,
   * given the files there at its start; otherwise it stops at the first
   * index where it fails.
   */
  lemma {:induction false} MergeFromStops(w: World, env: Environment, i: nat)
    requires i <= |w.shipments|
    ensures var r := MergeFrom(w, env, i);
      && (r.1.None? <==> forall j :: i <= j < |w.shipments| ==> MergeOk(w.written, w.shipments, env, j))
      && (r.1.Some? ==>
            && r.1.value.MergeFailed? && i <= r.1.value.index < |w.shipments|
            && !MergeOk(w.written, w.shipments, env, r.1.value.index)
            && forall j :: i <= j < r.1.value.index ==> MergeOk(w.written, w.shipments, env, j))
    decreases |w.shipments| - i
  {
    var n := |w.shipments|;
    if i < n && MergeOk(w.written, w.shipments, env, i) {
      var w' := w.(written := w.written + [MergedOf(w.shipments, i)]);
      MergeFromStops(w', env, i + 1);
      forall j | i < j < n
        ensures MergeOk(w'.written, w.shipments, env, j) == MergeOk(w.written, w.shipments, env, j)
      {
        PresentAfterMerged(w.written, w.shipments, i, j);
      }
    }
  }

  /** Where `pdfjam` cannot succeed for index j, the merge loop stops at j or earlier. */
  lemma MergeFromStopsBy(w: World, env: Environment, i: nat, j: nat)
    requires i <= j < |w.shipments| && !MergeOk(w.written, w.shipments, env, j)
    ensures var r := MergeFrom(w, env, i); r.1.Some? && r.1.value.MergeFailed? && r.1.value.index <= j
  {
    MergeFromStops(w, env, i);
  }

  // ---------------------------------------------------------------- write_results

  /** Row j's report line can be written: there is a shipment j and the row has no column beyond the header's. */
  predicate LineReady(rows: seq<Row>, header: seq<string>, ships: seq<Shipment>, j: nat)
    requires j < |rows|
  {
    j < |ships| && ReportLine(header, rows[j], j, ships[j].tracking).Some?
  }

  /** The report lines of rows `from` to `to`, each for the shipment of the same index. */
  function Lines(rows: seq<Row>, header: seq<string>, ships: seq<Shipment>, from: nat, to: nat): seq<seq<string>>
    requires from <= to <= |rows|
    requires forall j :: from <= j < to ==> LineReady(rows, header, ships, j)
    decreases |rows| - from
  {
    if from == to then []
    else
      assert LineReady(rows, header, ships, from);
      [ReportLine(header, rows[from], from, ships[from].tracking).value] + Lines(rows, header, ships, from + 1, to)
  }

  /** The loop of `write_results` from row `i` on: one report line per row, for shipment i. */
  function ReportFrom(rows: seq<Row>, header: seq<string>, w: World, i: nat): (World, Option<Failure>)
    decreases |rows| - i
  {
    if i >= |rows| then (w, None)
    else if i >= |w.shipments| then (w, Some(NoShipment(i)))
    else match ReportLine(header, rows[i], i, w.shipments[i].tracking)
      case None => (w, Some(UnexpectedField(i)))
      case Some(line) => ReportFrom(rows, header, w.(report := w.report + [line]), i + 1)
  }

  /**
   * `write_results`: open (and truncate) the report file; for a non-empty
   * input write the header of the first row, then one line per row.
   */
  function WriteResults(rows: seq<Row>, w: World, env: Environment): (World, Option<Failure>) {
    if !env.reportOpened then (w, Some(ReportUnwritable))
    else
      var truncated := w.(written := w.written + [ReportFile], report := []);
      if rows == [] then (truncated, None)
      else ReportFrom(rows, Header(rows[0]), truncated.(report := [Header(rows[0])]), 0)
  }

  /** The report loop changes only the report, and completes exactly when every row's line can be written. */
  lemma {:induction false} ReportFromStops(rows: seq<Row>, header: seq<string>, w: World, i: nat)
    requires i <= |rows|
    ensures var r := ReportFrom(rows, header, w, i);
      && r.0 == w.(report := r.0.report)
      && (r.1.None? <==> forall j :: i <= j < |rows| ==> LineReady(rows, header, w.shipments, j))
    decreases |rows| - i
  {
    if i < |rows| && LineReady(rows, header, w.shipments, i) {
      var line := ReportLine(header, rows[i], i, w.shipments[i].tracking).value;
      ReportFromStops(rows, header, w.(report := w.report + [line]), i + 1);
    }
  }

  /** A completed report loop appends one line per row, in row order. */
  lemma {:induction false} ReportFromLines(rows: seq<Row>, header: seq<string>, w: World, i: nat)
    requires i <= |rows|
    requires forall j :: i <= j < |rows| ==> LineReady(rows, header, w.shipments, j)
    ensures ReportFrom(rows, header, w, i).0.report == w.report + Lines(rows, header, w.shipments, i, |rows|)
    decreases |rows| - i
  {
    if i < |rows| {
      assert LineReady(rows, header, w.shipments, i);
      var line := ReportLine(header, rows[i], i, w.shipments[i].tracking).value;
      var rest := Lines(rows, header, w.shipments, i + 1, |rows|);
      ReportFromLines(rows, header, w.(report := w.report + [line]), i + 1);
      assert Lines(rows, header, w.shipments, i, |rows|) == [line] + rest;
      AppendAssoc(w.report, [line], rest);
    }
  }

  /** The lines of rows `from` to `to` start with row `from`'s line. */
  lemma LinesStep(rows: seq<Row>, header: seq<string>, ships: seq<Shipment>, from: nat, to: nat)
    requires from < to <= |rows|
    requires forall j :: from <= j < to ==> LineReady(rows, header, ships, j)
    ensures LineReady(rows, header, ships, from)
    ensures Lines(rows, header, ships, from, to) ==
      [ReportLine(header, rows[from], from, ships[from].tracking).value] + Lines(rows, header, ships, from + 1, to)
  {
    assert LineReady(rows, header, ships, from);
  }

  /**
   * A report loop that fails does so at a row m that has no shipment or a
   * column beyond the header's, every row from i up to m having had its line.
   */
  lemma {:induction false} ReportFromFailsAt(rows: seq<Row>, header: seq<string>, w: World, i: nat)
    requires i <= |rows|
    ensures var r := ReportFrom(rows, header, w, i);
      r.1.Some? ==>
        && (r.1.value.NoShipment? || r.1.value.UnexpectedField?)
        && i <= r.1.value.index < |rows|
        && !LineReady(rows, header, w.shipments, r.1.value.index)
        && (forall j :: i <= j < r.1.value.index ==> LineReady(rows, header, w.shipments, j))
    decreases |rows| - i
  {
    if i < |rows| && LineReady(rows, header, w.shipments, i) {
      var line := ReportLine(header, rows[i], i, w.shipments[i].tracking).value;
      var w' := w.(report := w.report + [line]);
      assert ReportFrom(rows, header, w, i) == ReportFrom(rows, header, w', i + 1);
      ReportFromFailsAt(rows, header, w', i + 1);
    }
  }

  /**
   * From row i on, when row m is the first without a line, the report loop
   * appends the lines of rows i..m-1 and fails at m: with NoShipment when
   * there is no shipment m, UnexpectedField otherwise.
   */
  lemma {:induction false} ReportFromPartial(rows: seq<Row>, header: seq<string>, w: World, i: nat, m: nat)
    requires i <= m < |rows|
    requires forall j :: i <= j < m ==> LineReady(rows, header, w.shipments, j)
    requires !LineReady(rows, header, w.shipments, m)
    ensures ReportFrom(rows, header, w, i) ==
      (w.(report := w.report + Lines(rows, header, w.shipments, i, m)),
       Some(if m < |w.shipments| then UnexpectedField(m) else NoShipment(m)))
    decreases m - i
  {
    if i < m {
      assert LineReady(rows, header, w.shipments, i);
      var line := ReportLine(header, rows[i], i, w.shipments[i].tracking).value;
      var w' := w.(report := w.report + [line]);
      assert ReportFrom(rows, header, w, i) == ReportFrom(rows, header, w', i + 1);
      ReportFromPartial(rows, header, w', i + 1, m);
      LinesStep(rows, header, w.shipments, i, m);
      AppendAssoc(w.report, [line], Lines(rows, header, w.shipments, i + 1, m));
    } else {
      assert Lines(rows, header, w.shipments, i, i) == [];
      assert w.(report := w.report + []) == w;
      if i < |w.shipments| {
        assert ReportLine(header, rows[i], i, w.shipments[i].tracking).None?;
      }
    }
  }

  /** Line j of the lines of rows `from` to `to` is row j's report line, for shipment j. */
  lemma {:induction false} LinesAt(rows: seq<Row>, header: seq<string>, ships: seq<Shipment>, from: nat, to: nat, j: nat)
    requires from <= j < to <= |rows|
    requires forall m :: from <= m < to ==> LineReady(rows, header, ships, m)
    ensures |Lines(rows, header, ships, from, to)| == to - from
    ensures LineReady(rows, header, ships, j)
    ensures Lines(rows, header, ships, from, to)[j - from] == ReportLine(header, rows[j], j, ships[j].tracking).value
    decreases |rows| - from
  {
    assert LineReady(rows, header, ships, from);
    var line := ReportLine(header, rows[from], from, ships[from].tracking).value;
    var rest := Lines(rows, header, ships, from + 1, to);
    assert Lines(rows, header, ships, from, to) == [line] + rest;
    LinesLength(rows, header, ships, from + 1, to);
    if j > from {
      LinesAt(rows, header, ships, from + 1, to, j);
      assert ([line] + rest)[j - from] == rest[j - from - 1];
    }
  }

  lemma {:induction false} LinesLength(rows: seq<Row>, header: seq<string>, ships: seq<Shipment>, from: nat, to: nat)
    requires from <= to <= |rows|
    requires forall m :: from <= m < to ==> LineReady(rows, header, ships, m)
    ensures |Lines(rows, header, ships, from, to)| == to - from
    decreases |rows| - from
  {
    if from < to {
      LinesLength(rows, header, ships, from + 1, to);
    }
  }

  /** A completed `write_results` on a non-empty input writes the header and then every row's line. */
  lemma WriteResultsLines(rows: seq<Row>, w: World, env: Environment)
    requires rows != [] && WriteResults(rows, w, env).1.None?
    ensures var r := WriteResults(rows, w, env).0;
      && r == w.(written := w.written + [ReportFile], report := r.report)
      && (forall j :: 0 <= j < |rows| ==> LineReady(rows, Header(rows[0]), w.shipments, j))
      && r.report == [Header(rows[0])] + Lines(rows, Header(rows[0]), w.shipments, 0, |rows|)
  {
    var start := w.(written := w.written + [ReportFile], report := [Header(rows[0])]);
    ReportFromStops(rows, Header(rows[0]), start, 0);
    ReportFromLines(rows, Header(rows[0]), start, 0);
  }

  /**
   * A `write_results` that fails after opening the report file leaves that
   * file truncated and partly written: the first row's header and the lines
   * of the rows before the one that failed, which had no shipment or a
   * column beyond the header's.
   */
  lemma WriteResultsPartial(rows: seq<Row>, w: World, env: Environment)
    ensures var r := WriteResults(rows, w, env);
      (env.reportOpened && r.1.Some?) ==>
        && rows != []
        && (r.1.value.NoShipment? || r.1.value.UnexpectedField?)
        && r.1.value.index < |rows|
        && !LineReady(rows, Header(rows[0]), w.shipments, r.1.value.index)
        && (forall j :: 0 <= j < r.1.value.index ==> LineReady(rows, Header(rows[0]), w.shipments, j))
        && r.0 == w.(written := w.written + [ReportFile],
                     report := [Header(rows[0])] + Lines(rows, Header(rows[0]), w.shipments, 0, r.1.value.index))
  {
    if env.reportOpened && rows != [] {
      var start := w.(written := w.written + [ReportFile], report := [Header(rows[0])]);
      ReportFromFailsAt(rows, Header(rows[0]), start, 0);
      var r := ReportFrom(rows, Header(rows[0]), start, 0);
      if r.1.Some? {
        ReportFromPartial(rows, Header(rows[0]), start, 0, r.1.value.index);
      }
    }
  }

  /** A report line with `n` columns from the input ends with shipment j's tracking code and merged-document path. */
  predicate Carries(line: seq<string>, n: nat, ships: seq<Shipment>, j: nat) {
    j < |ships| && |line| == n + 2 &&
    line[n] == CsvText(ships[j].tracking) && line[n + 1] == MergedOf(ships, j).Path()
  }

  /**
   * Under any header that ends with the two added columns, every line of rows
   * `from` to `to` ends with its shipment's tracking code and merged-document path.
   */
  lemma LinesCells(rows: seq<Row>, header: seq<string>, n: nat, ships: seq<Shipment>, from: nat, to: nat)
    requires from <= to <= |rows|
    requires |header| == n + 2 && header[n] == TrackingColumn && header[n + 1] == LabelAndNoteColumn
    requires forall m :: from <= m < to ==> LineReady(rows, header, ships, m)
    ensures |Lines(rows, header, ships, from, to)| == to - from
    ensures forall k :: 0 <= k < to - from ==> Carries(Lines(rows, header, ships, from, to)[k], n, ships, from + k)
  {
    LinesLength(rows, header, ships, from, to);
    forall k | 0 <= k < to - from
      ensures Carries(Lines(rows, header, ships, from, to)[k], n, ships, from + k)
    {
      LineCarries(rows, header, n, ships, from, to, from + k);
    }
  }

  /** Line j of the lines of rows `from` to `to` carries shipment j's tracking code and merged-document path. */
  lemma LineCarries(rows: seq<Row>, header: seq<string>, n: nat, ships: seq<Shipment>, from: nat, to: nat, j: nat)
    requires from <= j < to <= |rows|
    requires |header| == n + 2 && header[n] == TrackingColumn && header[n + 1] == LabelAndNoteColumn
    requires forall m :: from <= m < to ==> LineReady(rows, header, ships, m)
    ensures |Lines(rows, header, ships, from, to)| == to - from
    ensures Carries(Lines(rows, header, ships, from, to)[j - from], n, ships, j)
  {
    LinesAt(rows, header, ships, from, to, j);
    AddedCells(header, n, rows[j], j, ships[j].tracking);
    assert MergedOf(ships, j).Path() == MergedPath(j, ships[j].tracking);
  }

  /** A report made of a header and the lines of all rows: line k + 1 carries shipment k. */
  lemma ReportCarries(rows: seq<Row>, header: seq<string>, n: nat, ships: seq<Shipment>, report: seq<seq<string>>)
    requires |header| == n + 2 && header[n] == TrackingColumn && header[n + 1] == LabelAndNoteColumn
    requires forall m :: 0 <= m < |rows| ==> LineReady(rows, header, ships, m)
    requires report == [header] + Lines(rows, header, ships, 0, |rows|)
    ensures |report| == |rows| + 1
    ensures forall k :: 1 <= k < |report| ==> Carries(report[k], n, ships, k - 1)
  {
    var lines := Lines(rows, header, ships, 0, |rows|);
    LinesCells(rows, header, n, ships, 0, |rows|);
    forall k | 1 <= k < |report|
      ensures Carries(report[k], n, ships, k - 1)
    {
      assert report[k] == lines[k - 1];
    }
  }

  /**
   * A completed `write_results` on a non-empty input: the report is the
   * header of the first row and then one line per row, in row order; line
   * j + 1 carries shipment j's tracking code and, in "Label And Note", the
   * path of the merged document of index j.
   */
  lemma WriteResultsAligned(rows: seq<Row>, w: World, env: Environment)
    requires rows != [] && WriteResults(rows, w, env).1.None?
    ensures var r := WriteResults(rows, w, env).0;
      var n := |rows[0].Keys|;
      && r == w.(written := w.written + [ReportFile], report := r.report)
      && |r.report| == |rows| + 1 && r.report[0] == Header(rows[0])
      && forall k :: 1 <= k < |r.report| ==> Carries(r.report[k], n, w.shipments, k - 1)
  {
    WriteResultsLines(rows, w, env);
    var h := Header(rows[0]);
    ReportCarries(rows, h, |rows[0].Keys|, w.shipments, WriteResults(rows, w, env).0.report);
  }

  // ---------------------------------------------------------------- run

  /** The `try` block of `run` after the purchase: notes, then merging, then the report; the first failure ends it. */
  function Finish(rows: seq<Row>, w: World, env: Environment): (World, Option<Failure>) {
    var notes := NotesFrom(rows, w, env, 0);
    if notes.1.Some? then notes
    else
      var merged := MergeFrom(notes.0, env, 0);
      if merged.1.Some? then merged
      else WriteResults(rows, merged.0, env)
  }

  /** The three checks `run` makes before creating anything. */
  predicate Preflight(env: Environment) {
    env.originFound && env.parcelFound && env.csvExists
  }

  /**
   * `run`: resolve the origin address and the parcel and check the CSV path
   * (any failure raises); create the shipments (a failure raises); purchase
   * (failures are absorbed there); then notes, merge and report, any failure
   * of which triggers one refund sweep over the whole list and is absorbed.
   */
  function Run(rows: seq<Row>, env: Environment, w: World): (World, Outcome) {
    if !env.originFound then (w, Raised(OriginNotFound))
    else if !env.parcelFound then (w, Raised(ParcelNotFound))
    else if !env.csvExists then (w, Raised(CsvMissing))
    else
      var created := CreateShipments(rows, env, w);
      if created.1.Failure? then (created.0, Raised(created.1.error))
      else
        var bought := Purchase(created.0.(shipments := created.1.value), env);
        var finished := Finish(rows, bought.0, env);
        (Settle(finished, env), Returned(bought.1, finished.1))
  }

  /** The `except` clause of `run`: a failure of a later stage is reported and answered by one refund sweep. */
  function Settle(finished: (World, Option<Failure>), env: Environment): World {
    if finished.1.Some? then RefundFrom(finished.0, env, 0) else finished.0
  }

  /** The later stages leave the shipments and the carrier alone. */
  lemma FinishTouchesNoShipment(rows: seq<Row>, w: World, env: Environment)
    ensures Finish(rows, w, env).0.shipments == w.shipments
    ensures Finish(rows, w, env).0.calls == w.calls
  {
    NotesFromStops(rows, w, env, 0);
    var notes := NotesFrom(rows, w, env, 0);
    if notes.1.None? {
      MergeFromEffect(notes.0, env, 0);
      var merged := MergeFrom(notes.0, env, 0);
      if merged.1.None? && env.reportOpened && rows != [] {
        var truncated := merged.0.(written := merged.0.written + [ReportFile], report := [Header(rows[0])]);
        ReportFromStops(rows, Header(rows[0]), truncated, 0);
      }
    }
  }

  /**
   * `run` raises exactly when a check before the first carrier purchase
   * fails: origin address, parcel, CSV path or the creation of a shipment.
   * Then nothing is bought or refunded and no file is written: after the
   * two look-ups, which are not in the call log, the only carrier calls are
   * creates for the first rows, in order. When one of the three up-front
   * checks fails not even a shipment is created.
   */
  lemma RunRaisesOnlyBeforeSpending(rows: seq<Row>, env: Environment, w: World)
    ensures var r := Run(rows, env, w);
      && (r.1.Raised? <==>
            !Preflight(env) || exists j :: 0 <= j < |rows| && !Creatable(rows, env, j))
      && (r.1.Raised? ==>
            && r.0 == w.(calls := r.0.calls)
            && |w.calls| <= |r.0.calls| <= |w.calls| + |rows|
            && r.0.calls[|w.calls|..] == Creates(0, |r.0.calls| - |w.calls|))
      && (!Preflight(env) ==> r.0 == w)
  {
    if Preflight(env) {
      CreateShipmentsAligned(rows, env, w);
      CreateShipmentsStopsAtFirstFailure(rows, env, w);
      var r := CreateShipments(rows, env, w);
      if r.1.Failure? {
        assert r.0.calls[|w.calls|..] == Creates(0, |r.0.calls| - |w.calls|);
      }
    }
  }

  /**
   * The end of a run after the purchase: notes, merge and report, and one
   * refund sweep over the whole list if any of them failed.
   */
  lemma AfterPurchase(rows: seq<Row>, w: World, env: Environment)
    ensures var finished := Finish(rows, w, env);
      var after := Settle(finished, env);
      && |after.shipments| == |w.shipments|
      && after.calls == w.calls + (if finished.1.Some? then Refunds(env, 0, |w.shipments|) else [])
      && (finished.1.None? ==> after.shipments == w.shipments)
      && (finished.1.Some? ==> forall j :: 0 <= j < |w.shipments| ==> after.shipments[j].status == RefundAttempted)
  {
    FinishTouchesNoShipment(rows, w, env);
    var finished := Finish(rows, w, env);
    if finished.1.Some? {
      RefundSweepTotal(finished.0, env);
    }
  }

  /** The world after the creation stage and the purchase of a run that got past creation. */
  lemma RunPurchased(rows: seq<Row>, env: Environment, w: World)
    requires Preflight(env) && CreateShipments(rows, env, w).1.Success?
    ensures var created := CreateShipments(rows, env, w);
      var bought := Purchase(created.0.(shipments := created.1.value), env);
      var n := |rows|;
      && |bought.0.shipments| == n
      && (bought.1.Some? ==>
            && bought.1.value < n
            && (forall j :: 0 <= j < n ==> bought.0.shipments[j].status == RefundAttempted)
            && bought.0.calls == w.calls + Creates(0, n) + Buys(0, bought.1.value + 1) + Refunds(env, 0, n))
      && (bought.1.None? ==>
            && (forall j :: 0 <= j < n ==> bought.0.shipments[j].status == Purchased && bought.0.shipments[j].tracking == env.buy(j))
            && bought.0.calls == w.calls + Creates(0, n) + Buys(0, n))
  {
    CreateShipmentsAligned(rows, env, w);
    var created := CreateShipments(rows, env, w);
    PurchaseFailureRefundsWholeList(created.0.(shipments := created.1.value), env);
  }

  /**
   * A run that returns passed the three checks, created every shipment, and
   * settles the world its purchase left.
   */
  lemma RunReturned(rows: seq<Row>, env: Environment, w: World)
    requires Run(rows, env, w).1.Returned?
    ensures Preflight(env) && CreateShipments(rows, env, w).1.Success?
    ensures var created := CreateShipments(rows, env, w);
      var bought := Purchase(created.0.(shipments := created.1.value), env);
      var finished := Finish(rows, bought.0, env);
      Run(rows, env, w) == (Settle(finished, env), Returned(bought.1, finished.1))
  {
  }

  /**
   * Where a run that returns leaves the shipments: one per row, all
   * Purchased with the codes bought when nothing failed, and all
   * RefundAttempted when anything did.
   */
  lemma RunShipments(rows: seq<Row>, env: Environment, w: World)
    requires Run(rows, env, w).1.Returned?
    ensures Preflight(env)
    ensures var r := Run(rows, env, w);
      && |r.0.shipments| == |rows|
      && (r.1.purchaseFailure.Some? ==> r.1.purchaseFailure.value < |rows|)
    ensures var r := Run(rows, env, w);
      r.1.purchaseFailure.None? && r.1.stageFailure.None? ==>
        forall j :: 0 <= j < |rows| ==> r.0.shipments[j].status == Purchased && r.0.shipments[j].tracking == env.buy(j)
    ensures var r := Run(rows, env, w);
      r.1.purchaseFailure.Some? || r.1.stageFailure.Some? ==>
        forall j :: 0 <= j < |rows| ==> r.0.shipments[j].status == RefundAttempted
  {
    RunReturned(rows, env, w);
    RunPurchased(rows, env, w);
    var created := CreateShipments(rows, env, w);
    var bought := Purchase(created.0.(shipments := created.1.value), env);
    AfterPurchase(rows, bought.0, env);
  }

  /**
   * The carrier calls of a run that returns: one create per row, then buys
   * in index order up to the first purchase failure, then a refund sweep
   * over the whole list if the purchase failed, then another one if notes,
   * merging or the report failed.
   */
  lemma RunCalls(rows: seq<Row>, env: Environment, w: World)
    requires Run(rows, env, w).1.Returned?
    ensures var r := Run(rows, env, w);
      var n := |rows|;
      var purchaseFailure := r.1.purchaseFailure;
      r.0.calls ==
        w.calls + Creates(0, n)
        + Buys(0, if purchaseFailure.Some? then purchaseFailure.value + 1 else n)
        + (if purchaseFailure.Some? then Refunds(env, 0, n) else [])
        + (if r.1.stageFailure.Some? then Refunds(env, 0, n) else [])
  {
    RunReturned(rows, env, w);
    PurchaseCalls(rows, env, w);
    var created := CreateShipments(rows, env, w);
    var bought := Purchase(created.0.(shipments := created.1.value), env);
    AfterPurchaseCalls(rows, bought.0, env);
  }

  /** The carrier calls up to the end of the purchase, in the shape `RunCalls` states them. */
  lemma PurchaseCalls(rows: seq<Row>, env: Environment, w: World)
    requires Preflight(env) && CreateShipments(rows, env, w).1.Success?
    ensures var created := CreateShipments(rows, env, w);
      var bought := Purchase(created.0.(shipments := created.1.value), env);
      var n := |rows|;
      && |bought.0.shipments| == n
      && bought.0.calls == w.calls + Creates(0, n)
           + Buys(0, if bought.1.Some? then bought.1.value + 1 else n)
           + (if bought.1.Some? then Refunds(env, 0, n) else [])
  {
    RunPurchased(rows, env, w);
  }

  /** The carrier calls of the later stages: one refund sweep if any of them failed. */
  lemma AfterPurchaseCalls(rows: seq<Row>, w: World, env: Environment)
    ensures var finished := Finish(rows, w, env);
      Settle(finished, env).calls == w.calls + (if finished.1.Some? then Refunds(env, 0, |w.shipments|) else [])
  {
    AfterPurchase(rows, w, env);
  }

  /**
   * Notes, merging and the report all completed on a non-empty input: the
   * report lines carry the shipments' tracking codes and the paths of merged
   * documents that were written.
   */
  lemma FinishCompletes(rows: seq<Row>, w: World, env: Environment)
    requires rows != [] && Finish(rows, w, env).1.None?
    ensures var r := Finish(rows, w, env).0;
      && r.shipments == w.shipments
      && |r.report| == |rows| + 1 && r.report[0] == Header(rows[0])
      && forall k :: 1 <= k < |r.report| ==>
           Carries(r.report[k], |rows[0].Keys|, w.shipments, k - 1) && MergedOf(w.shipments, k - 1) in r.written
  {
    var notes := NotesFrom(rows, w, env, 0);
    NotesFromStops(rows, w, env, 0);
    var merged := MergeFrom(notes.0, env, 0);
    MergeFromEffect(notes.0, env, 0);
    var finished := WriteResults(rows, merged.0, env);
    assert Finish(rows, w, env) == finished;
    WriteResultsAligned(rows, merged.0, env);
    var ships := w.shipments;
    var merges := Merges(ships, 0, |ships|);
    assert finished.0.written == notes.0.written + merges + [ReportFile];
    forall j | 0 <= j < |rows|
      ensures j < |ships| && MergedOf(ships, j) in finished.0.written
    {
      assert Carries(finished.0.report[j + 1], |rows[0].Keys|, ships, j);
      assert merges[j] == MergedOf(ships, j);
    }
  }

  /**
   * A run in which nothing failed, on a non-empty input: the report is the
   * first row's header and then one line per row; line k + 1 carries the
   * tracking code the carrier returned for shipment k and the path of the
   * merged document of index k, and that merged document was written.
   */
  lemma RunReportAligned(rows: seq<Row>, env: Environment, w: World)
    requires rows != [] && Run(rows, env, w).1 == Returned(None, None)
    ensures var r := Run(rows, env, w).0;
      && |r.report| == |rows| + 1 && r.report[0] == Header(rows[0])
      && forall k :: 1 <= k < |r.report| ==>
           && Carries(r.report[k], |rows[0].Keys|, r.shipments, k - 1)
           && r.shipments[k - 1].tracking == env.buy(k - 1)
           && MergedOf(r.shipments, k - 1) in r.written
  {
    var created := CreateShipments(rows, env, w);
    var bought := Purchase(created.0.(shipments := created.1.value), env);
    var finished := Finish(rows, bought.0, env);
    assert Preflight(env) && created.1.Success?;
    assert Run(rows, env, w) == (finished.0, Returned(bought.1, None));
    RunShipments(rows, env, w);
    FinishCompletes(rows, bought.0, env);
  }

  /**
   * Notes, merging and the report all completed: the files written are the
   * notes of the rows in order, then the merged documents in order, then
   * the report.
   */
  lemma FinishWritten(rows: seq<Row>, w: World, env: Environment)
    requires Finish(rows, w, env).1.None?
    ensures forall j :: 0 <= j < |rows| ==> NoteReady(rows, w.shipments, env, j)
    ensures Finish(rows, w, env).0.written ==
      w.written + Notes(rows, w.shipments, env, 0, |rows|) + Merges(w.shipments, 0, |w.shipments|) + [ReportFile]
  {
    NotesFromStops(rows, w, env, 0);
    var notes := NotesFrom(rows, w, env, 0);
    NotesFromWritten(rows, w, env, 0);
    MergeFromEffect(notes.0, env, 0);
    var merged := MergeFrom(notes.0, env, 0);
    assert Finish(rows, w, env) == WriteResults(rows, merged.0, env);
    if rows != [] {
      var truncated := merged.0.(written := merged.0.written + [ReportFile], report := [Header(rows[0])]);
      ReportFromStops(rows, Header(rows[0]), truncated, 0);
    }
  }

  /**
   * The files of a run in which nothing failed, in the order written: every
   * label in index order, then every note, then every merged document, then
   * the report; nothing else.
   */
  lemma RunWritten(rows: seq<Row>, env: Environment, w: World)
    requires Run(rows, env, w).1 == Returned(None, None)
    ensures var r := Run(rows, env, w).0;
      && |r.shipments| == |rows|
      && forall j :: 0 <= j < |rows| ==> NoteReady(rows, r.shipments, env, j) && r.shipments[j].tracking == env.buy(j)
    ensures var r := Run(rows, env, w).0;
      var n := |rows|;
      r.written == w.written + Labels(env, 0, n) + Notes(rows, r.shipments, env, 0, n) + Merges(r.shipments, 0, n) + [ReportFile]
  {
    CreateShipmentsAligned(rows, env, w);
    var created := CreateShipments(rows, env, w);
    assert Preflight(env) && created.1.Success?;
    var start := created.0.(shipments := created.1.value);
    PurchaseStopsAtFirstFailure(start, env);
    var bought := Purchase(start, env);
    var finished := Finish(rows, bought.0, env);
    assert Run(rows, env, w) == (finished.0, Returned(bought.1, None));
    FinishTouchesNoShipment(rows, bought.0, env);
    FinishWritten(rows, bought.0, env);
  }

  /** The notes of all rows, one per row, each for the shipment of its index. */
  lemma NotesTable(rows: seq<Row>, ships: seq<Shipment>, env: Environment)
    requires forall j :: 0 <= j < |rows| ==> NoteReady(rows, ships, env, j)
    ensures |rows| <= |ships|
    ensures |Notes(rows, ships, env, 0, |rows|)| == |rows|
    ensures forall j :: 0 <= j < |rows| ==>
      && HasNoteFields(rows[j])
      && NoteFor(rows[j]) == Some(Note(rows[j]["CBI Message"], rows[j]["SendingFrom"], rows[j]["Generic Message"]))
      && Notes(rows, ships, env, 0, |rows|)[j] == NoteFile(j, ships[j].tracking, NoteFor(rows[j]).value)
  {
    if rows == [] {
      assert Notes(rows, ships, env, 0, |rows|) == [];
    } else {
      assert NoteReady(rows, ships, env, |rows| - 1);
      NotesAt(rows, ships, env, 0, |rows|, 0);
    }
    forall j | 0 <= j < |rows|
      ensures HasNoteFields(rows[j]) && Notes(rows, ships, env, 0, |rows|)[j] == NoteFile(j, ships[j].tracking, NoteFor(rows[j]).value)
    {
      NotesAt(rows, ships, env, 0, |rows|, j);
    }
  }

  /**
   * Files written as labels, then notes, then merged documents of the same
   * shipments under the carrier's tracking codes: every merged document's
   * inputs are the paths of the label and the note of its own index, and
   * all three are among the files.
   */
  lemma StageFilesAgree(rows: seq<Row>, ships: seq<Shipment>, env: Environment, before: seq<Artifact>, notes: seq<Artifact>, written: seq<Artifact>)
    requires |ships| == |rows| == |notes|
    requires forall j :: 0 <= j < |rows| ==>
      && HasNoteFields(rows[j]) && ships[j].tracking == env.buy(j)
      && notes[j] == NoteFile(j, env.buy(j), NoteFor(rows[j]).value)
    requires written == before + Labels(env, 0, |rows|) + notes + Merges(ships, 0, |rows|) + [ReportFile]
    ensures forall j :: 0 <= j < |rows| ==>
      && HasNoteFields(rows[j])
      && LabelFile(j, env.buy(j)) in written
      && NoteFile(j, env.buy(j), NoteFor(rows[j]).value) in written
      && MergedFile(j, env.buy(j)) in written
      && MergedOf(ships, j).Inputs() == [LabelFile(j, env.buy(j)).Path(), NoteFile(j, env.buy(j), NoteFor(rows[j]).value).Path()]
  {
    var n := |rows|;
    var labels := Labels(env, 0, n);
    var merges := Merges(ships, 0, n);
    forall j | 0 <= j < n
      ensures LabelFile(j, env.buy(j)) in written
      ensures NoteFile(j, env.buy(j), NoteFor(rows[j]).value) in written
      ensures MergedFile(j, env.buy(j)) in written
    {
      var b := |before|;
      assert written[b + j] == labels[j];
      assert written[b + n + j] == notes[j];
      assert written[b + n + n + j] == merges[j];
    }
  }

  /**
   * In a run in which nothing failed, the merge of index j reads the label
   * and the note written for index j under the tracking code the carrier
   * returned for it, and all three files were written.
   */
  lemma RunMergesReadWrittenFiles(rows: seq<Row>, env: Environment, w: World)
    requires Run(rows, env, w).1 == Returned(None, None)
    ensures var r := Run(rows, env, w).0;
      forall j :: 0 <= j < |rows| ==>
        && j < |r.shipments| && r.shipments[j].tracking == env.buy(j) && HasNoteFields(rows[j])
        && LabelFile(j, env.buy(j)) in r.written
        && NoteFile(j, env.buy(j), NoteFor(rows[j]).value) in r.written
        && MergedFile(j, env.buy(j)) in r.written
        && MergedOf(r.shipments, j).Inputs() == [LabelFile(j, env.buy(j)).Path(), NoteFile(j, env.buy(j), NoteFor(rows[j]).value).Path()]
  {
    var r := Run(rows, env, w).0;
    RunWritten(rows, env, w);
    NotesTable(rows, r.shipments, env);
    StageFilesAgree(rows, r.shipments, env, w.written, Notes(rows, r.shipments, env, 0, |rows|), r.written);
  }

  // ---------------------------------------------------------------- after a purchase failure

  /** What follows a prefix `a` of `out` is `x` whenever `a + x` is a prefix of `out`. */
  lemma SliceAfterPrefix<T>(a: seq<T>, x: seq<T>, out: seq<T>)
    requires a + x <= out
    ensures |a| + |x| <= |out| && out[|a|..|a| + |x|] == x
  {
    assert out[..|a| + |x|] == a + x;
    assert out[|a|..|a| + |x|] == out[..|a| + |x|][|a|..];
  }

  /** The notes loop only appends files, and only notes. */
  lemma {:induction false} NotesFromExtends(rows: seq<Row>, w: World, env: Environment, i: nat)
    ensures w.written <= NotesFrom(rows, w, env, i).0.written
    ensures StageFilesFrom(NotesFrom(rows, w, env, i).0.written, |w.written|)
    decreases |rows| - i
  {
    if i < |rows| && NoteReady(rows, w.shipments, env, i) {
      var note := NoteFile(i, w.shipments[i].tracking, NoteFor(rows[i]).value);
      var w' := w.(written := w.written + [note]);
      assert NotesFrom(rows, w, env, i) == NotesFrom(rows, w', env, i + 1);
      NotesFromExtends(rows, w', env, i + 1);
    }
  }

  /** The merge loop only appends files. */
  lemma {:induction false} MergeFromExtends(w: World, env: Environment, i: nat)
    ensures w.written <= MergeFrom(w, env, i).0.written
    decreases |w.shipments| - i
  {
    if i < |w.shipments| && MergeOk(w.written, w.shipments, env, i) {
      var w' := w.(written := w.written + [MergedOf(w.shipments, i)]);
      assert MergeFrom(w, env, i) == MergeFrom(w', env, i + 1);
      MergeFromExtends(w', env, i + 1);
    }
  }

  /** `write_results` adds at most the report file to the files written. */
  lemma WriteResultsExtends(rows: seq<Row>, w: World, env: Environment)
    ensures w.written <= WriteResults(rows, w, env).0.written
  {
    if env.reportOpened && rows != [] {
      var truncated := w.(written := w.written + [ReportFile], report := [Header(rows[0])]);
      ReportFromStops(rows, Header(rows[0]), truncated, 0);
    }
  }

  /**
   * The later stages only append files: first the notes of every row, as
   * far as the notes loop gets, then the merged documents, as far as the
   * merge loop gets.
   */
  lemma FinishAppends(rows: seq<Row>, w: World, env: Environment)
    ensures w.written <= Finish(rows, w, env).0.written
    ensures (forall j :: 0 <= j < |rows| ==> NoteReady(rows, w.shipments, env, j)) ==>
      w.written + Notes(rows, w.shipments, env, 0, |rows|) <= Finish(rows, w, env).0.written
    ensures ((forall j :: 0 <= j < |rows| ==> NoteReady(rows, w.shipments, env, j)) &&
             (forall j :: 0 <= j < |w.shipments| ==>
                MergeOk(w.written + Notes(rows, w.shipments, env, 0, |rows|), w.shipments, env, j))) ==>
        w.written + Notes(rows, w.shipments, env, 0, |rows|) + Merges(w.shipments, 0, |w.shipments|) <= Finish(rows, w, env).0.written
  {
    var notes := NotesFrom(rows, w, env, 0);
    NotesFromExtends(rows, w, env, 0);
    NotesFromStops(rows, w, env, 0);
    if notes.1.None? {
      var merged := MergeFrom(notes.0, env, 0);
      MergeFromExtends(notes.0, env, 0);
      MergeFromEffect(notes.0, env, 0);
      MergeFromStops(notes.0, env, 0);
      WriteResultsExtends(rows, merged.0, env);
      var out := Finish(rows, w, env).0.written;
      if merged.1.None? {
        assert out == WriteResults(rows, merged.0, env).0.written;
      } else {
        assert out == merged.0.written;
      }
      assert merged.0.written <= out;
      if forall j :: 0 <= j < |rows| ==> NoteReady(rows, w.shipments, env, j) {
        NotesFromWritten(rows, w, env, 0);
        if forall j :: 0 <= j < |w.shipments| ==> MergeOk(notes.0.written, w.shipments, env, j) {
          assert merged.0.written == notes.0.written + Merges(w.shipments, 0, |w.shipments|);
        }
      }
    }
  }

  /**
   * A purchase that fails at k, on freshly created shipments: the failure
   * is reported at k, every shipment ends RefundAttempted, the shipments up
   * to k keep the tracking code the carrier returned (none for k when its
   * buy failed) and those after k have none, and the labels of 0..k-1,
   * then the empty label k if its download failed after the file was
   * opened, are the only files written.
   */
  lemma PurchaseFailsAt(w: World, env: Environment, k: nat)
    requires forall j :: 0 <= j < |w.shipments| ==> w.shipments[j].status == Created && w.shipments[j].tracking == None
    requires k < |w.shipments| && !Completes(env, k)
    requires forall j :: 0 <= j < k ==> Completes(env, j)
    ensures var r := Purchase(w, env);
      && r.1 == Some(k)
      && |r.0.shipments| == |w.shipments|
      && (forall j :: 0 <= j < |w.shipments| ==>
            r.0.shipments[j].status == RefundAttempted &&
            r.0.shipments[j].tracking == if j <= k then env.buy(j) else None)
      && r.0.written == w.written + Labels(env, 0, k) + FailedLabel(env, k)
  {
    var n := |w.shipments|;
    PurchaseFromStops(w, env, 0);
    var first := FirstIncomplete(env, 0, n);
    assert first == k;
    PurchaseFromShipments(w, env, 0);
    PurchaseFromLabels(w, env, 0);
    var loop := PurchaseFrom(w, env, 0);
    RefundSweepTotal(loop.0, env);
  }

  /**
   * The later stages and the refund sweep that answers their failure, on
   * shipments that were all refunded already: the shipments stay as they
   * are and the files written only grow, by the notes and then the merged
   * documents as far as those loops get.
   */
  lemma SettleAppends(rows: seq<Row>, b: World, env: Environment)
    requires AllRefunded(b.shipments)
    ensures var after := Settle(Finish(rows, b, env), env);
      && after.shipments == b.shipments
      && after.written == Finish(rows, b, env).0.written
  {
    var finished := Finish(rows, b, env);
    FinishTouchesNoShipment(rows, b, env);
    if finished.1.Some? {
      RefundSweepTotal(finished.0, env);
      assert RefundFrom(finished.0, env, 0).shipments == b.shipments;
    }
  }

  /**
   * The rest of a run whose shipments were all refunded already: when every
   * note can be rendered, the notes step appends one note per row right
   * after the files written before, named after the shipment of the same
   * index; the refund sweep that may follow changes no file.
   */
  lemma StagesAfterRefundNotes(rows: seq<Row>, b: World, env: Environment, a: nat)
    requires a == |b.written| && |b.shipments| == |rows| && AllRefunded(b.shipments)
    ensures NotesRender(rows, env) ==>
      NotesWrittenAt(Settle(Finish(rows, b, env), env).written, a, rows, b.shipments)
  {
    var out := Settle(Finish(rows, b, env), env).written;
    SettleAppends(rows, b, env);
    FinishAppends(rows, b, env);
    if NotesRender(rows, env) {
      assert forall j :: 0 <= j < |rows| ==> NoteReady(rows, b.shipments, env, j);
      NotesFollow(rows, b.shipments, env, b.written, out);
    }
  }

  /** Every row has the note columns and its note renders. */
  predicate NotesRender(rows: seq<Row>, env: Environment) {
    forall j :: 0 <= j < |rows| ==> HasNoteFields(rows[j]) && env.noteRendered(j)
  }

  /**
   * From position `a` on, `written` holds one note per row, in row order,
   * each row's note named after the shipment of the same index.
   */
  predicate NotesWrittenAt(written: seq<Artifact>, a: nat, rows: seq<Row>, ships: seq<Shipment>) {
    && a + |rows| <= |written| && |rows| <= |ships|
    && forall j :: 0 <= j < |rows| ==>
         HasNoteFields(rows[j]) && written[a..a + |rows|][j] == NoteFile(j, ships[j].tracking, NoteFor(rows[j]).value)
  }

  /** Notes written right after `before`: the j-th is row j's note under shipment j's tracking code. */
  lemma NotesFollow(rows: seq<Row>, ships: seq<Shipment>, env: Environment, before: seq<Artifact>, out: seq<Artifact>)
    requires forall j :: 0 <= j < |rows| ==> NoteReady(rows, ships, env, j)
    requires before + Notes(rows, ships, env, 0, |rows|) <= out
    ensures NotesWrittenAt(out, |before|, rows, ships)
  {
    NotesTable(rows, ships, env);
    SliceAfterPrefix(before, Notes(rows, ships, env, 0, |rows|), out);
  }

  /** The world of a run after creating the shipments and purchasing postage for them. */
  function PurchasedWorld(rows: seq<Row>, env: Environment, w: World): World
    requires CreateShipments(rows, env, w).1.Success?
  {
    var created := CreateShipments(rows, env, w);
    Purchase(created.0.(shipments := created.1.value), env).0
  }

  /**
   * A run whose purchase fails at k returns with that failure after the
   * later stages ran on the refunded shipments: those up to k carry the
   * tracking code the carrier returned and those after k none, and the
   * labels of 0..k-1, then what is left of label k, were the only files
   * written so far.
   */
  lemma RunPurchaseFailedAt(rows: seq<Row>, env: Environment, w: World, k: nat)
    requires Preflight(env)
    requires forall j :: 0 <= j < |rows| ==> Creatable(rows, env, j)
    requires k < |rows| && !Completes(env, k)
    requires forall j :: 0 <= j < k ==> Completes(env, j)
    ensures CreateShipments(rows, env, w).1.Success?
    ensures var b := PurchasedWorld(rows, env, w);
      && Run(rows, env, w) == (Settle(Finish(rows, b, env), env), Returned(Some(k), Finish(rows, b, env).1))
      && |b.shipments| == |rows|
      && (forall j :: 0 <= j < |rows| ==>
            b.shipments[j].status == RefundAttempted &&
            b.shipments[j].tracking == if j <= k then env.buy(j) else None)
      && b.written == w.written + Labels(env, 0, k) + FailedLabel(env, k)
  {
    CreateShipmentsAligned(rows, env, w);
    var created := CreateShipments(rows, env, w);
    var start := created.0.(shipments := created.1.value);
    PurchaseFailsAt(start, env, k);
  }

  /** Every shipment has had a refund requested. */
  predicate AllRefunded(ships: seq<Shipment>) {
    forall j :: 0 <= j < |ships| ==> ships[j].status == RefundAttempted
  }

  /**
   * The world a run whose purchase fails at k settles from: the refunded
   * shipments, one per row, after the labels of 0..k-1 and what is left of
   * label k.
   */
  lemma RunFailedWorld(rows: seq<Row>, env: Environment, w: World, k: nat)
    requires Preflight(env)
    requires forall j :: 0 <= j < |rows| ==> Creatable(rows, env, j)
    requires k < |rows| && !Completes(env, k)
    requires forall j :: 0 <= j < k ==> Completes(env, j)
    ensures CreateShipments(rows, env, w).1.Success?
    ensures var b := PurchasedWorld(rows, env, w);
      && Run(rows, env, w).0 == Settle(Finish(rows, b, env), env)
      && |b.shipments| == |rows| && AllRefunded(b.shipments)
      && |b.written| == |w.written| + k + |FailedLabel(env, k)|
  {
    RunPurchaseFailedAt(rows, env, w, k);
  }

  /**
   * A purchase failure does not end a run: `purchase_postage` refunds the
   * whole list and returns normally, and `run` goes on to the notes, the
   * merge and the report. The run returns with the purchase failure at k;
   * every shipment ends RefundAttempted, those up to k with the tracking
   * code the carrier returned and those after k with none; the labels saved
   * before the failure, and an empty label k when its download failed after
   * the file was opened, stay the first files written.
   */
  lemma RunAfterPurchaseFailure(rows: seq<Row>, env: Environment, w: World, k: nat)
    requires Preflight(env)
    requires forall j :: 0 <= j < |rows| ==> Creatable(rows, env, j)
    requires k < |rows| && !Completes(env, k)
    requires forall j :: 0 <= j < k ==> Completes(env, j)
    ensures var r := Run(rows, env, w);
      && r.1.Returned? && r.1.purchaseFailure == Some(k)
      && |r.0.shipments| == |rows|
      && (forall j :: 0 <= j < |rows| ==>
            r.0.shipments[j].status == RefundAttempted &&
            r.0.shipments[j].tracking == if j <= k then env.buy(j) else None)
      && w.written + Labels(env, 0, k) + FailedLabel(env, k) <= r.0.written
  {
    RunPurchaseFailedAt(rows, env, w, k);
    var b := PurchasedWorld(rows, env, w);
    SettleAppends(rows, b, env);
    FinishAppends(rows, b, env);
  }

  /**
   * After a purchase failure at k, when every note can be rendered, the
   * notes step still writes one note per row right after the labels of
   * 0..k-1 and what is left of label k, each named after the tracking code
   * its shipment ended with.
   */
  lemma RunAfterPurchaseFailureNotes(rows: seq<Row>, env: Environment, w: World, k: nat)
    requires Preflight(env)
    requires forall j :: 0 <= j < |rows| ==> Creatable(rows, env, j)
    requires k < |rows| && !Completes(env, k)
    requires forall j :: 0 <= j < k ==> Completes(env, j)
    ensures NotesRender(rows, env) ==>
      var r := Run(rows, env, w).0;
      NotesWrittenAt(r.written, |w.written| + k + |FailedLabel(env, k)|, rows, r.shipments)
  {
    RunFailedWorld(rows, env, w, k);
    var b := PurchasedWorld(rows, env, w);
    var after := Settle(Finish(rows, b, env), env);
    StagesAfterRefundNotes(rows, b, env, |w.written| + k + |FailedLabel(env, k)|);
    SettleAppends(rows, b, env);
    assert Run(rows, env, w).0 == after && after.shipments == b.shipments;
  }

  /** From position `a` on, `written` holds only notes and merged documents: no label and no report file. */
  predicate StageFilesFrom(written: seq<Artifact>, a: nat) {
    a <= |written| && forall j :: a <= j < |written| ==> written[j].NoteFile? || written[j].MergedFile?
  }

  /** Two labels have the same name only when they have the same index. */
  lemma LabelPathIndex(i: nat, t: Option<string>, j: nat, u: Option<string>)
    ensures LabelPath(i, t) == LabelPath(j, u) ==> i == j
  {
    if LabelPath(i, t) == LabelPath(j, u) {
      ArtifactPathInjective("labels", "LABEL", i, TrackingText(t), j, TrackingText(u));
    }
  }

  /** The labels of 0..k-1 do not bring a file named like label k. */
  lemma LabelAbsentAfterLabels(before: seq<Artifact>, env: Environment, k: nat, t: Option<string>)
    requires LabelPath(k, t) !in Paths(before)
    ensures LabelPath(k, t) !in Paths(before + Labels(env, 0, k))
  {
    var labels := Labels(env, 0, k);
    var after := before + labels;
    forall m | 0 <= m < |after|
      ensures Paths(after)[m] != LabelPath(k, t)
    {
      PathsAt(after, m);
      if m < |before| {
        assert after[m] == before[m];
        PathsAt(before, m);
        assert Paths(before)[m] in Paths(before);
      } else {
        assert after[m] == labels[m - |before|] == LabelFile(m - |before|, env.buy(m - |before|));
        LabelPathIndex(m - |before|, env.buy(m - |before|), k, t);
      }
    }
  }

  /** Notes and merged documents do not bring a file named like a label. */
  lemma LabelStaysAbsent(before: seq<Artifact>, after: seq<Artifact>, k: nat, t: Option<string>)
    requires before <= after && StageFilesFrom(after, |before|)
    requires LabelPath(k, t) !in Paths(before)
    ensures LabelPath(k, t) !in Paths(after)
  {
    forall m | 0 <= m < |after|
      ensures Paths(after)[m] != LabelPath(k, t)
    {
      PathsAt(after, m);
      if m < |before| {
        assert after[m] == before[m];
        PathsAt(before, m);
        assert Paths(before)[m] in Paths(before);
      } else {
        ArtifactKindsDistinct(k, t, after[m].index, after[m].tracking);
      }
    }
  }

  /**
   * When the notes loop or the merge loop fails, `write_results` never runs:
   * the later stages end with that failure, leave the report as it was, and
   * add only notes and merged documents to the files written.
   */
  lemma FinishFailsBeforeReport(rows: seq<Row>, w: World, env: Environment)
    ensures var notes := NotesFrom(rows, w, env, 0);
      var f := Finish(rows, w, env);
      (notes.1.Some? || MergeFrom(notes.0, env, 0).1.Some?) ==>
        && f.1.Some?
        && (f.1.value.NoShipment? || f.1.value.MissingField? || f.1.value.RenderFailed? || f.1.value.MergeFailed?)
        && f.0.report == w.report
        && w.written <= f.0.written && StageFilesFrom(f.0.written, |w.written|)
  {
    var notes := NotesFrom(rows, w, env, 0);
    NotesFromStops(rows, w, env, 0);
    NotesFromExtends(rows, w, env, 0);
    if notes.1.None? {
      MergeFromEffect(notes.0, env, 0);
      var merged := MergeFrom(notes.0, env, 0);
      if merged.1.Some? {
        assert Finish(rows, w, env) == merged;
        var added := Merges(notes.0.shipments, 0, merged.1.value.index);
        forall j | |w.written| <= j < |merged.0.written|
          ensures merged.0.written[j].NoteFile? || merged.0.written[j].MergedFile?
        {
          if j < |notes.0.written| {
            assert merged.0.written[j] == notes.0.written[j];
          } else {
            assert merged.0.written[j] == added[j - |notes.0.written|];
          }
        }
      }
    }
  }

  /**
   * The later stages on a world without label k: `pdfjam` cannot merge
   * index k, so they fail, in the notes loop or in the merge loop at an
   * index no later than k, before `write_results` opens the report file;
   * all they add are notes and merged documents.
   */
  lemma FinishFailsWithoutLabel(rows: seq<Row>, b: World, env: Environment, k: nat)
    requires k < |b.shipments|
    requires LabelPath(k, b.shipments[k].tracking) !in Paths(b.written)
    ensures var f := Finish(rows, b, env);
      && f.1.Some? && (f.1.value.MergeFailed? ==> f.1.value.index <= k)
      && f.0.report == b.report
      && b.written <= f.0.written && StageFilesFrom(f.0.written, |b.written|)
  {
    var notes := NotesFrom(rows, b, env, 0);
    NotesFromStops(rows, b, env, 0);
    NotesFromExtends(rows, b, env, 0);
    if notes.1.None? {
      MergeFromEffect(notes.0, env, 0);
      LabelStaysAbsent(b.written, notes.0.written, k, b.shipments[k].tracking);
      MergeFromStopsBy(notes.0, env, 0, k);
    }
    FinishFailsBeforeReport(rows, b, env);
  }

  /** Creating the shipments and purchasing postage leave the report file alone. */
  lemma PurchasedWorldReport(rows: seq<Row>, env: Environment, w: World)
    requires CreateShipments(rows, env, w).1.Success?
    ensures PurchasedWorld(rows, env, w).report == w.report
  {
    CreateFromCalls(rows, env, 0, w, []);
    var created := CreateShipments(rows, env, w);
    var start := created.0.(shipments := created.1.value);
    PurchaseFromCalls(start, env, 0);
    RefundFromEffect(PurchaseFrom(start, env, 0).0, env, 0);
  }

  /**
   * The world a run whose purchase fails at k goes on from: shipment k
   * carries what its buy returned, the labels of 0..k-1 and what is left of
   * label k follow the files there before, and the report file is as before.
   */
  lemma RunFailedLabels(rows: seq<Row>, env: Environment, w: World, k: nat)
    requires Preflight(env)
    requires forall j :: 0 <= j < |rows| ==> Creatable(rows, env, j)
    requires k < |rows| && !Completes(env, k)
    requires forall j :: 0 <= j < k ==> Completes(env, j)
    ensures CreateShipments(rows, env, w).1.Success?
    ensures var b := PurchasedWorld(rows, env, w);
      && Run(rows, env, w) == (Settle(Finish(rows, b, env), env), Returned(Some(k), Finish(rows, b, env).1))
      && k < |b.shipments| && b.shipments[k].tracking == env.buy(k)
      && b.written == w.written + Labels(env, 0, k) + FailedLabel(env, k)
      && b.report == w.report
  {
    RunPurchaseFailedAt(rows, env, w, k);
    PurchasedWorldReport(rows, env, w);
  }

  /**
   * After a purchase failure at k, the labels on disk stop at m: m is k, or
   * k + 1 when the download of label k failed after the file was opened and
   * left it empty. When m is not past the last row, and no file of label
   * m's name was there before the run, `pdfjam` cannot merge index m: the
   * later stages fail, in the notes loop or in the merge loop at an index no
   * later than m, and `write_results` never runs. The run returns with both
   * failures, the report is as before, and after the labels of 0..m-1 only
   * notes and merged documents are written.
   */
  lemma RunAfterPurchaseFailureStops(rows: seq<Row>, env: Environment, w: World, k: nat)
    requires Preflight(env)
    requires forall j :: 0 <= j < |rows| ==> Creatable(rows, env, j)
    requires k < |rows| && !Completes(env, k)
    requires forall j :: 0 <= j < k ==> Completes(env, j)
    requires var m := k + |FailedLabel(env, k)|;
      m < |rows| && LabelPath(m, if m == k then env.buy(k) else None) !in Paths(w.written)
    ensures var r := Run(rows, env, w);
      var m := k + |FailedLabel(env, k)|;
      && r.1.Returned? && r.1.purchaseFailure == Some(k) && r.1.stageFailure.Some?
      && (r.1.stageFailure.value.MergeFailed? ==> r.1.stageFailure.value.index <= m)
      && r.0.report == w.report
      && w.written + Labels(env, 0, k) + FailedLabel(env, k) <= r.0.written
      && StageFilesFrom(r.0.written, |w.written| + m)
  {
    var m := k + |FailedLabel(env, k)|;
    var t := if m == k then env.buy(k) else None;
    RunPurchaseFailedAt(rows, env, w, k);
    RunFailedLabels(rows, env, w, k);
    var b := PurchasedWorld(rows, env, w);
    assert b.shipments[m].tracking == t;
    LabelsLeft(env, k);
    LabelAbsentAfterLabels(w.written, env, m, t);
    assert b.written == w.written + Labels(env, 0, m);
    FinishFailsWithoutLabel(rows, b, env, m);
    RefundSweepTotal(Finish(rows, b, env).0, env);
  }

  /**
   * The carrier calls of such a run: the creates, the buys up to k, the
   * refund sweep of `purchase_postage` and the second sweep of `run`'s
   * `except` clause, both over the whole list.
   */
  lemma RunAfterPurchaseFailureRefundsTwice(rows: seq<Row>, env: Environment, w: World, k: nat)
    requires Preflight(env)
    requires forall j :: 0 <= j < |rows| ==> Creatable(rows, env, j)
    requires k < |rows| && !Completes(env, k)
    requires forall j :: 0 <= j < k ==> Completes(env, j)
    requires var m := k + |FailedLabel(env, k)|;
      m < |rows| && LabelPath(m, if m == k then env.buy(k) else None) !in Paths(w.written)
    ensures Run(rows, env, w).0.calls ==
      w.calls + Creates(0, |rows|) + Buys(0, k + 1) + Refunds(env, 0, |rows|) + Refunds(env, 0, |rows|)
  {
    RunAfterPurchaseFailureStops(rows, env, w, k);
    RunCalls(rows, env, w);
  }

  /**
   * A purchase whose last download fails after the label file was opened
   * leaves a label for every row, the last one empty, and the later stages
   * run on the refunded shipments as after a full purchase: when every note
   * renders and `pdfjam` merges every pair, the empty label included, the
   * notes and merged documents of all rows are written; and when the report
   * is written too, the run returns with the purchase failure alone, makes
   * no second refund sweep, and reports one line per refunded shipment.
   */
  lemma RunAfterLastLabelLeftEmpty(rows: seq<Row>, env: Environment, w: World)
    requires Preflight(env)
    requires forall j :: 0 <= j < |rows| ==> Creatable(rows, env, j)
    requires rows != [] && !Completes(env, |rows| - 1) && FailedLabel(env, |rows| - 1) != []
    requires forall j :: 0 <= j < |rows| - 1 ==> Completes(env, j)
    ensures CreateShipments(rows, env, w).1.Success?
    ensures var b := PurchasedWorld(rows, env, w);
      var r := Run(rows, env, w);
      && |b.shipments| == |rows| && AllRefunded(b.shipments)
      && b.written == w.written + Labels(env, 0, |rows|)
      && ((forall j :: 0 <= j < |rows| ==> NoteReady(rows, b.shipments, env, j) && env.merged(j)) ==>
            b.written + Notes(rows, b.shipments, env, 0, |rows|) + Merges(b.shipments, 0, |rows|) <= r.0.written)
      && (r.1 == Returned(Some(|rows| - 1), None) ==>
            r.0.shipments == b.shipments && |r.0.report| == |rows| + 1 && r.0.report[0] == Header(rows[0]))
  {
    var k := |rows| - 1;
    RunPurchaseFailedAt(rows, env, w, k);
    RunFailedLabels(rows, env, w, k);
    var b := PurchasedWorld(rows, env, w);
    LabelsLeft(env, k);
    StagesOnAllLabels(rows, b, env, w.written);
  }

  /**
   * The later stages and the refund sweep that answers their failure, after
   * a label was saved, possibly empty, for every shipment under the tracking
   * code its buy returned: when every note renders and `pdfjam` merges every
   * pair, the notes and then the merged documents of all rows follow the
   * labels; and when the stages complete, the shipments are as they were and
   * the report has the header and a line per row.
   */
  lemma StagesOnAllLabels(rows: seq<Row>, b: World, env: Environment, before: seq<Artifact>)
    requires rows != [] && |b.shipments| == |rows|
    requires forall j :: 0 <= j < |rows| ==> b.shipments[j].tracking == env.buy(j)
    requires b.written == before + Labels(env, 0, |rows|)
    ensures var f := Finish(rows, b, env);
      var r := Settle(f, env);
      && ((forall j :: 0 <= j < |rows| ==> NoteReady(rows, b.shipments, env, j) && env.merged(j)) ==>
            b.written + Notes(rows, b.shipments, env, 0, |rows|) + Merges(b.shipments, 0, |rows|) <= r.written)
      && (f.1.None? ==> r.shipments == b.shipments && |r.report| == |rows| + 1 && r.report[0] == Header(rows[0]))
  {
    var f := Finish(rows, b, env);
    RefundSweepTotal(f.0, env);
    if forall j :: 0 <= j < |rows| ==> NoteReady(rows, b.shipments, env, j) && env.merged(j) {
      MergeInputsWritten(rows, b.shipments, env, before);
      FinishAppends(rows, b, env);
    }
    if f.1.None? {
      FinishCompletes(rows, b, env);
    }
  }

  /**
   * After a purchase and a notes stage that both completed, every merge
   * finds its inputs: label j among the labels the purchase saved and note
   * j among the notes, both under shipment j's tracking code.
   */
  lemma MergeInputsWritten(rows: seq<Row>, ships: seq<Shipment>, env: Environment, before: seq<Artifact>)
    requires |ships| == |rows|
    requires forall j :: 0 <= j < |rows| ==> NoteReady(rows, ships, env, j)
    requires forall j :: 0 <= j < |ships| ==> ships[j].tracking == env.buy(j)
    ensures var written := before + Labels(env, 0, |ships|) + Notes(rows, ships, env, 0, |rows|);
      forall j :: 0 <= j < |ships| ==> InputsPresent(written, ships, j)
  {
    var labels := Labels(env, 0, |ships|);
    NotesNamed(rows, ships, env);
    assert LabelsOf(labels, ships);
    InputsAllFollow(before, labels, Notes(rows, ships, env, 0, |rows|), ships);
  }

  /** Entry j of `labels` is label j under shipment j's tracking code. */
  predicate LabelsOf(labels: seq<Artifact>, ships: seq<Shipment>) {
    |labels| == |ships| && forall j :: 0 <= j < |ships| ==> labels[j] == LabelFile(j, ships[j].tracking)
  }

  /** Entry j of `notes` is a note of index j under shipment j's tracking code. */
  predicate NotesOf(notes: seq<Artifact>, ships: seq<Shipment>) {
    |notes| == |ships| &&
    forall j :: 0 <= j < |ships| ==> notes[j].NoteFile? && notes[j].index == j && notes[j].tracking == ships[j].tracking
  }

  /** The notes of all rows are named after the shipments of the same index. */
  lemma NotesNamed(rows: seq<Row>, ships: seq<Shipment>, env: Environment)
    requires |ships| == |rows|
    requires forall j :: 0 <= j < |rows| ==> NoteReady(rows, ships, env, j)
    ensures NotesOf(Notes(rows, ships, env, 0, |rows|), ships)
  {
    var notes := Notes(rows, ships, env, 0, |rows|);
    forall j | 0 <= j < |ships|
      ensures j < |notes| && notes[j].NoteFile? && notes[j].index == j && notes[j].tracking == ships[j].tracking
    {
      NotesAt(rows, ships, env, 0, |rows|, j);
    }
    if |rows| > 0 {
      NotesAt(rows, ships, env, 0, |rows|, 0);
    } else {
      assert notes == [];
    }
  }

  /** Labels then notes of every index after `before`: every merge finds its inputs. */
  lemma InputsAllFollow(before: seq<Artifact>, labels: seq<Artifact>, notes: seq<Artifact>, ships: seq<Shipment>)
    requires LabelsOf(labels, ships) && NotesOf(notes, ships)
    ensures forall j :: 0 <= j < |ships| ==> InputsPresent(before + labels + notes, ships, j)
  {
    forall j | 0 <= j < |ships|
      ensures InputsPresent(before + labels + notes, ships, j)
    {
      ThreePartsAt(before, labels, notes, j, j);
      InputsAt(before + labels + notes, ships, j, |before| + j, |before| + |labels| + j);
    }
  }

  /** Indexing into the middle and the last of three joined sequences. */
  lemma ThreePartsAt<T>(a: seq<T>, b: seq<T>, c: seq<T>, i: nat, j: nat)
    requires i < |b| && j < |c|
    ensures (a + b + c)[|a| + i] == b[i] && (a + b + c)[|a| + |b| + j] == c[j]
  {
  }

  /** Files a and b of those written are label j and note j under shipment j's tracking code. */
  lemma InputsAt(written: seq<Artifact>, ships: seq<Shipment>, j: nat, a: nat, b: nat)
    requires j < |ships| && a < |written| && b < |written|
    requires written[a] == LabelFile(j, ships[j].tracking)
    requires written[b].NoteFile? && written[b].index == j && written[b].tracking == ships[j].tracking
    ensures InputsPresent(written, ships, j)
  {
    PathsAt(written, a);
    PathsAt(written, b);
  }
}

=== FILE: report.dfy ===
/**
 * The reconciliation report `results/compiled_results.csv`: its header and
 * its rows as `csv.DictWriter` lays them out. Quoting and line endings of the
 * CSV format are not modelled; a line is the sequence of its cells.
 */
module Report {
  import opened Wrappers
  import opened Text
  import opened Artifacts

  /** One input row as `csv.DictReader` yields it: column name to cell. */
  type Row = map<string, string>

  const TrackingColumn: string := "Tracking Code"
  const LabelAndNoteColumn: string := "Label And Note"

  /**
   * `sorted(row.keys()) + ["Tracking Code", "Label And Note"]` for the first
   * input row: its column names once each in ascending order, then the two
   * added columns.
   */
  function Header(first: Row): (h: seq<string>)
    ensures |h| == |first.Keys| + 2
    ensures StrictlyAscending(h[..|first.Keys|])
    ensures forall k :: k in h[..|first.Keys|] <==> k in first
    ensures h[|first.Keys|] == TrackingColumn && h[|first.Keys| + 1] == LabelAndNoteColumn
  {
    SortedKeys(first.Keys) + [TrackingColumn, LabelAndNoteColumn]
  }

  /**
   * `DictWriter.writerow(row)` with the default `restval` "" and
   * `extrasaction` "raise": no line (a ValueError) when the row has a key that
   * is not a column; otherwise one cell per column, the row's value or "".
   */
  function WriteRow(header: seq<string>, row: Row): (line: Option<seq<string>>)
    ensures line.Some? <==> forall k :: k in row ==> k in header
    ensures line.Some? ==> |line.value| == |header|
    ensures line.Some? ==> forall j :: 0 <= j < |header| ==>
      line.value[j] == if header[j] in row then row[header[j]] else ""
  {
    if forall k :: k in row ==> k in header then
      Some(seq(|header|, j requires 0 <= j < |header| => if header[j] in row then row[header[j]] else ""))
    else None
  }

  /** `csv.DictReader` on one line: column name to cell, a later column of the same name winning. */
  function ReadRow(header: seq<string>, line: seq<string>): Row
    requires |line| == |header|
  {
    if header == [] then map[]
    else ReadRow(header[..|header| - 1], line[..|line| - 1])[header[|header| - 1] := line[|line| - 1]]
  }

  /** The columns named in `header`, each with the row's value or "". */
  function Filled(header: seq<string>, row: Row): Row {
    map k | k in header :: if k in row then row[k] else ""
  }

  /** A line whose cells depend only on their column name reads back as that dependency. */
  lemma {:induction false} ReadRowKeyed(header: seq<string>, line: seq<string>, cells: Row)
    requires |line| == |header|
    requires forall j :: 0 <= j < |header| ==> header[j] in cells && line[j] == cells[header[j]]
    ensures ReadRow(header, line) == map k | k in header :: cells[k]
    decreases |header|
  {
    if header != [] {
      var n := |header| - 1;
      ReadRowKeyed(header[..n], line[..n], cells);
      var m := ReadRow(header, line);
      var want := map k | k in header :: cells[k];
      assert forall k :: k in header <==> k in header[..n] || k == header[n] by {
        assert header == header[..n] + [header[n]];
      }
      assert m.Keys == want.Keys;
      forall k | k in m
        ensures m[k] == want[k]
      {
      }
    }
  }

  /**
   * `writerow` refuses a row with a key that is not a column. Otherwise,
   * reading back the written line gives the row itself, with "" in the
   * columns the row did not have: every value of the row comes back under
   * its own column, and nothing is lost or misplaced.
   */
  lemma WriteRowReadsBack(header: seq<string>, row: Row)
    ensures WriteRow(header, row).None? <==> exists k :: k in row && k !in header
    ensures WriteRow(header, row).Some? ==> ReadRow(header, WriteRow(header, row).value) == Filled(header, row)
    ensures WriteRow(header, row).Some? ==>
      forall k :: k in row ==> k in ReadRow(header, WriteRow(header, row).value) && ReadRow(header, WriteRow(header, row).value)[k] == row[k]
  {
    if WriteRow(header, row).Some? {
      var f := Filled(header, row);
      ReadRowKeyed(header, WriteRow(header, row).value, f);
      assert (map k | k in header :: f[k]) == f;
    }
  }

  /** How the csv module writes a Python value that may be `None`. */
  function CsvText(tracking: Option<string>): string {
    match tracking
    case Some(code) => code
    case None => ""
  }

  /**
   * `row.update({"Tracking Code": ..., "Label And Note": ...})` followed by
   * `writer.writerow(row)` for the shipment at `index`.
   */
  function ReportLine(header: seq<string>, row: Row, index: nat, tracking: Option<string>): Option<seq<string>> {
    WriteRow(header, row[TrackingColumn := CsvText(tracking)][LabelAndNoteColumn := MergedPath(index, tracking)])
  }

  /** The report's columns are the first row's columns and the two added ones. */
  lemma HeaderColumns(first: Row)
    ensures forall k :: k in Header(first) <==> k in first || k == TrackingColumn || k == LabelAndNoteColumn
  {
    var h := Header(first);
    var n := |first.Keys|;
    assert h == h[..n] + [h[n], h[n + 1]];
    forall k
      ensures k in h <==> k in first || k == TrackingColumn || k == LabelAndNoteColumn
    {
      assert k in h <==> k in h[..n] || k == h[n] || k == h[n + 1];
    }
  }

  /** The two added cells of a report line, under any header that ends with the two added columns. */
  lemma AddedCells(h: seq<string>, n: nat, row: Row, index: nat, tracking: Option<string>)
    requires |h| == n + 2 && h[n] == TrackingColumn && h[n + 1] == LabelAndNoteColumn
    requires ReportLine(h, row, index, tracking).Some?
    ensures var line := ReportLine(h, row, index, tracking).value;
      |line| == n + 2 && line[n] == CsvText(tracking) && line[n + 1] == MergedPath(index, tracking) &&
      forall j :: 0 <= j < n && h[j] != TrackingColumn && h[j] != LabelAndNoteColumn ==>
        line[j] == if h[j] in row then row[h[j]] else ""
  {
    var full := row[TrackingColumn := CsvText(tracking)][LabelAndNoteColumn := MergedPath(index, tracking)];
    assert TrackingColumn != LabelAndNoteColumn by {
      assert TrackingColumn[0] != LabelAndNoteColumn[0];
    }
    assert full[TrackingColumn] == CsvText(tracking);
  }

  /**
   * Under the header of the first row, a report line exists exactly when
   * the row has no column the first row lacked; it then holds the shipment's
   * tracking code and merged-document path in the two added columns and the
   * row's own cells in the others.
   */
  lemma ReportLineLayout(first: Row, row: Row, index: nat, tracking: Option<string>)
    ensures var line := ReportLine(Header(first), row, index, tracking);
      line.Some? <==> forall k :: k in row ==> k in first || k == TrackingColumn || k == LabelAndNoteColumn
    ensures var h := Header(first);
      var line := ReportLine(h, row, index, tracking);
      line.Some? ==>
        |line.value| == |first.Keys| + 2 &&
        line.value[|first.Keys|] == CsvText(tracking) &&
        line.value[|first.Keys| + 1] == MergedPath(index, tracking) &&
        forall j :: 0 <= j < |first.Keys| && h[j] != TrackingColumn && h[j] != LabelAndNoteColumn ==>
          line.value[j] == if h[j] in row then row[h[j]] else ""
  {
    var h := Header(first);
    HeaderColumns(first);
    if ReportLine(h, row, index, tracking).Some? {
      AddedCells(h, |first.Keys|, row, index, tracking);
    }
  }
}

=== FILE: text.dfy ===
/**
 * The pure string rules of the postage pipeline: Python's `str(n)` for a
 * non-negative integer, `str.zfill`, upper-casing over Latin-1, the destination
 * state normalisation of `State[:2].upper()` and Python's ordering of strings,
 * which `sorted` uses for the report header.
 */
module Text {

  predicate IsDigit(c: char) {
    '0' <= c <= '9'
  }

  predicate AllDigits(s: string) {
    forall i :: 0 <= i < |s| ==> IsDigit(s[i])
  }

  function DigitValue(c: char): (d: nat)
    requires IsDigit(c)
    ensures d < 10
  {
    c as int - '0' as int
  }

  function DigitChar(d: nat): (c: char)
    requires d < 10
    ensures IsDigit(c) && DigitValue(c) == d
  {
    ('0' as int + d) as char
  }

  /** Python's `str(n)` for a natural number: its decimal digits, most significant first. */
  function Decimal(n: nat): string
    decreases n
  {
    if n < 10 then [DigitChar(n)] else Decimal(n / 10) + [DigitChar(n % 10)]
  }

  /** `str(n)` is a non-empty string of digits, a single one exactly below 10. */
  lemma {:induction false} DecimalDigits(n: nat)
    ensures 1 <= |Decimal(n)| && AllDigits(Decimal(n))
    ensures n < 10 <==> |Decimal(n)| == 1
    decreases n
  {
    if n >= 10 {
      DecimalDigits(n / 10);
    }
  }

  /** The value of a string of decimal digits; the empty string reads as 0. */
  function ParseDecimal(s: string): nat
    requires AllDigits(s)
  {
    if s == [] then 0 else 10 * ParseDecimal(s[..|s| - 1]) + DigitValue(s[|s| - 1])
  }

  /** Reading back the decimal rendering of `n` gives `n`. */
  lemma {:induction false} ParseDecimalOfDecimal(n: nat)
    ensures AllDigits(Decimal(n)) && ParseDecimal(Decimal(n)) == n
    decreases n
  {
    DecimalDigits(n);
    if n >= 10 {
      var s := Decimal(n);
      assert s[..|s| - 1] == Decimal(n / 10);
      ParseDecimalOfDecimal(n / 10);
    }
  }

  /** `str(n)` has at most three characters exactly when `n < 1000`. */
  lemma {:induction false} DecimalAtMostThree(n: nat)
    ensures n < 1000 <==> |Decimal(n)| <= 3
  {
    if n >= 10 {
      var m := n / 10;
      DecimalDigits(m);
      if m >= 10 {
        DecimalDigits(m / 10);
        assert |Decimal(m)| == |Decimal(m / 10)| + 1;
        if m >= 100 {
          assert m / 10 >= 10;
        }
      }
    }
  }

  function Zeros(k: nat): (z: string)
    ensures |z| == k && forall i :: 0 <= i < k ==> z[i] == '0'
  {
    if k == 0 then [] else Zeros(k - 1) + ['0']
  }

  /** Leading zeros do not change the value of a digit string. */
  lemma {:induction false} LeadingZerosKeepValue(k: nat, s: string)
    requires AllDigits(s)
    ensures AllDigits(Zeros(k) + s)
    ensures ParseDecimal(Zeros(k) + s) == ParseDecimal(s)
    decreases |s|, k
  {
    var t := Zeros(k) + s;
    if s == [] {
      assert t == Zeros(k);
      if k > 0 {
        assert t[..|t| - 1] == Zeros(k - 1) + s;
        LeadingZerosKeepValue(k - 1, s);
      }
    } else {
      assert t[..|t| - 1] == Zeros(k) + s[..|s| - 1];
      LeadingZerosKeepValue(k, s[..|s| - 1]);
    }
  }

  /**
   * Python's `s.zfill(width)` for a string of digits: left-filled with '0'
   * up to `width` characters, unchanged when it is already that long.
   */
  function ZFill(s: string, width: nat): string {
    if |s| >= width then s else Zeros(width - |s|) + s
  }

  /** `zfill` only prepends zeros, as many as make up `width`, and keeps the value. */
  lemma ZFillShape(s: string, width: nat)
    requires AllDigits(s)
    ensures var r := ZFill(s, width);
      && |r| == (if |s| >= width then |s| else width)
      && r[|r| - |s|..] == s
      && (forall i :: 0 <= i < |r| - |s| ==> r[i] == '0')
      && AllDigits(r) && ParseDecimal(r) == ParseDecimal(s)
  {
    if |s| < width {
      LeadingZerosKeepValue(width - |s|, s);
    }
  }

  /**
   * `str(index).zfill(3)`: the row number used in every artifact name. Below
   * 1000 it is exactly three digits; from 1000 on it is the plain decimal
   * rendering; in every case it reads back as the index.
   */
  function Pad3(n: nat): string {
    ZFill(Decimal(n), 3)
  }

  /** The padded index: three digits below 1000, `str(n)` from 1000 on, and in every case it reads back as `n`. */
  lemma Pad3Shape(n: nat)
    ensures var r := Pad3(n);
      && AllDigits(r) && 3 <= |r|
      && (n < 1000 <==> |r| == 3)
      && (n >= 1000 ==> r == Decimal(n))
      && ParseDecimal(r) == n
  {
    DecimalAtMostThree(n);
    ParseDecimalOfDecimal(n);
    ZFillShape(Decimal(n), 3);
  }

  /** Two different indices never get the same padded name. */
  lemma Pad3Injective(m: nat, n: nat)
    requires Pad3(m) == Pad3(n)
    ensures m == n
  {
    Pad3Shape(m);
    Pad3Shape(n);
    assert ParseDecimal(Pad3(m)) == ParseDecimal(Pad3(n));
  }

  /**
   * Python's `c.upper()` on one character of the Latin-1 range: the ASCII
   * and Latin-1 small letters give their capitals, 'ÿ' gives 'Ÿ' (U+0178),
   * 'µ' gives the Greek capital mu (U+039C), and 'ß', which has no
   * one-character capital, gives "SS". Every other character is kept.
   */
  function UpperOf(c: char): (u: string)
    ensures 1 <= |u| <= 2
  {
    if 'a' <= c <= 'z' || ('\U{E0}' <= c <= '\U{FE}' && c != '\U{F7}') then [(c as int - 32) as char]
    else if c == '\U{DF}' then "SS"
    else if c == '\U{FF}' then ['\U{178}']
    else if c == '\U{B5}' then ['\U{39C}']
    else [c]
  }

  /** The character has an upper case other than itself. */
  predicate IsLower(c: char) {
    UpperOf(c) != [c]
  }

  /** No character of the string has an upper case other than itself. */
  predicate UpperCase(s: string) {
    forall i :: 0 <= i < |s| ==> !IsLower(s[i])
  }

  /** What `upper()` gives for a character is already upper case. */
  lemma UpperOfIsUpper(c: char)
    ensures UpperCase(UpperOf(c))
  {
  }

  /**
   * `s.upper()`: each character replaced by its upper case, in order. The
   * result is never shorter, since 'ß' becomes two characters, and holds no
   * lower-case character.
   */
  function Upper(s: string): (r: string)
    ensures |s| <= |r| <= 2 * |s|
    ensures UpperCase(r)
  {
    if s == [] then []
    else
      UpperOfIsUpper(s[0]);
      UpperOf(s[0]) + Upper(s[1..])
  }

  /** Upper-casing works character by character: it distributes over concatenation. */
  lemma {:induction false} UpperAppend(s: string, t: string)
    ensures Upper(s + t) == Upper(s) + Upper(t)
    decreases |s|
  {
    if s == [] {
      assert s + t == t;
    } else {
      assert (s + t)[0] == s[0] && (s + t)[1..] == s[1..] + t;
      UpperAppend(s[1..], t);
      assert Upper(s + t) == UpperOf(s[0]) + (Upper(s[1..]) + Upper(t));
    }
  }

  /** A string with no lower-case character is its own upper case. */
  lemma {:induction false} UpperOfUpperCase(t: string)
    requires UpperCase(t)
    ensures Upper(t) == t
    decreases |t|
  {
    if t != [] {
      assert !IsLower(t[0]);
      UpperOfUpperCase(t[1..]);
      assert t == [t[0]] + t[1..];
    }
  }

  /** Upper-casing twice gives what upper-casing once gives. */
  lemma UpperIdempotent(s: string)
    ensures Upper(Upper(s)) == Upper(s)
  {
    UpperOfUpperCase(Upper(s));
  }

  /** Without an 'ß', upper-casing keeps the length and works position by position. */
  lemma {:induction false} UpperKeepsLength(s: string)
    requires forall i :: 0 <= i < |s| ==> s[i] != '\U{DF}'
    ensures |Upper(s)| == |s|
    ensures forall i :: 0 <= i < |s| ==> Upper(s)[i] == UpperOf(s[i])[0]
    decreases |s|
  {
    if s != [] {
      UpperKeepsLength(s[1..]);
      var r := Upper(s);
      assert r == UpperOf(s[0]) + Upper(s[1..]);
      assert |UpperOf(s[0])| == 1;
      forall i | 0 <= i < |s|
        ensures r[i] == UpperOf(s[i])[0]
      {
        if i > 0 {
          assert r[i] == Upper(s[1..])[i - 1];
        }
      }
    }
  }

  /**
   * `State[:2].upper()` as line 55 of the script writes it: cut to two
   * characters, then upper-cased. An 'ß' among the two makes the result
   * longer than two characters.
   */
  function NormalizeStateAsWritten(state: string): (r: string)
    ensures (if |state| < 2 then |state| else 2) <= |r| <= 4
    ensures UpperCase(r)
  {
    Upper(if |state| < 2 then state else state[..2])
  }

  /**
   * As written, the normalised state of "ßa" is "SSA", three characters,
   * and normalising that again gives "SS": neither the two-character bound
   * nor idempotence holds.
   */
  lemma NormalizeStateAsWrittenTooLong()
    ensures NormalizeStateAsWritten("\U{DF}a") == "SSA"
    ensures NormalizeStateAsWritten("SSA") == "SS"
  {
    assert "\U{DF}a"[..2] == "\U{DF}a" && "\U{DF}a"[1..] == "a";
    assert Upper("a") == "A";
    assert Upper("\U{DF}a") == "SS" + Upper("a");
    assert Upper("S") == "S";
    assert Upper("SS") == "S" + Upper("S");
    assert "SSA"[..2] == "SS";
  }

  /**
   * The destination state sent to the carrier: upper-cased, then cut to at
   * most two characters (`State.upper()[:2]`). It is the upper-cased value
   * itself or its first two characters, and holds no lower-case character.
   */
  function NormalizeState(state: string): (r: string)
    ensures |r| <= 2
  {
    var upper := Upper(state);
    if |upper| < 2 then upper else upper[..2]
  }

  /**
   * The normalised state is the whole upper-cased value or its first two
   * characters, a prefix of the upper-cased value, and upper case.
   */
  lemma NormalizeStateShape(state: string)
    ensures var r := NormalizeState(state);
      && (r == Upper(state) || |r| == 2)
      && |r| <= |Upper(state)| && r == Upper(state)[..|r|]
      && UpperCase(r)
  {
  }

  /**
   * When neither of the first two characters is an 'ß', upper-casing before
   * or after the cut gives the same state: for such values the state sent
   * to the carrier is the one line 55 computes.
   */
  lemma NormalizeStateAgrees(state: string)
    requires forall i :: 0 <= i < |state| && i < 2 ==> state[i] != '\U{DF}'
    ensures NormalizeState(state) == NormalizeStateAsWritten(state)
  {
    var cut := if |state| < 2 then state else state[..2];
    var rest := state[|cut|..];
    assert state == cut + rest;
    UpperAppend(cut, rest);
    UpperKeepsLength(cut);
    var upper := Upper(state);
    assert upper[..|cut|] == Upper(cut);
  }

  /** Normalising an already normalised state changes nothing. */
  lemma NormalizeStateIdempotent(state: string)
    ensures NormalizeState(NormalizeState(state)) == NormalizeState(state)
  {
    var once := NormalizeState(state);
    NormalizeStateShape(state);
    UpperOfUpperCase(once);
    assert once[..|once|] == once;
  }

  /** Python's `a < b` on strings: lexicographic by code point, a proper prefix first. */
  predicate Below(a: string, b: string)
    decreases |a|
  {
    if a == [] then b != []
    else if b == [] then false
    else if a[0] != b[0] then a[0] < b[0]
    else Below(a[1..], b[1..])
  }

  lemma {:induction false} BelowAsymmetric(a: string, b: string)
    ensures Below(a, b) ==> !Below(b, a)
    decreases |a|
  {
    if a != [] && b != [] && a[0] == b[0] {
      BelowAsymmetric(a[1..], b[1..]);
    }
  }

  lemma {:induction false} BelowTransitive(a: string, b: string, c: string)
    requires Below(a, b) && Below(b, c)
    ensures Below(a, c)
    decreases |a|
  {
    if a != [] && a[0] == b[0] && b[0] == c[0] {
      BelowTransitive(a[1..], b[1..], c[1..]);
    }
  }

  lemma {:induction false} BelowTotal(a: string, b: string)
    ensures a == b || Below(a, b) || Below(b, a)
    decreases |a|
  {
    if a != [] && b != [] && a[0] == b[0] {
      BelowTotal(a[1..], b[1..]);
      if a[1..] == b[1..] {
        assert a == [a[0]] + a[1..] && b == [b[0]] + b[1..];
      }
    }
  }

  /** `m` is the first of `keys` in Python's string order. */
  predicate IsLeast(m: string, keys: set<string>) {
    m in keys && forall k :: k in keys && k != m ==> Below(m, k)
  }

  lemma {:induction false} LeastExists(keys: set<string>)
    requires keys != {}
    ensures exists m :: IsLeast(m, keys)
    decreases keys
  {
    var x :| x in keys;
    if keys != {x} {
      var rest := keys - {x};
      LeastExists(rest);
      var m :| IsLeast(m, rest);
      BelowTotal(x, m);
      if Below(x, m) {
        forall k | k in keys && k != x
          ensures Below(x, k)
        {
          if k != m {
            BelowTransitive(x, m, k);
          }
        }
        assert IsLeast(x, keys);
      } else {
        assert IsLeast(m, keys);
      }
    } else {
      assert IsLeast(x, keys);
    }
  }

  lemma LeastUnique(keys: set<string>)
    ensures forall m, n :: IsLeast(m, keys) && IsLeast(n, keys) ==> m == n
  {
    forall m, n | IsLeast(m, keys) && IsLeast(n, keys)
      ensures m == n
    {
      BelowAsymmetric(m, n);
    }
  }

  predicate StrictlyAscending(s: seq<string>) {
    forall i, j :: 0 <= i < j < |s| ==> Below(s[i], s[j])
  }

  /** `sorted(keys)`: every key once, in ascending order. */
  function SortedKeys(keys: set<string>): (r: seq<string>)
    ensures |r| == |keys|
    ensures forall k :: k in r <==> k in keys
    ensures StrictlyAscending(r)
    decreases keys
  {
    if keys == {} then []
    else
      LeastExists(keys);
      LeastUnique(keys);
      var m :| IsLeast(m, keys);
      [m] + SortedKeys(keys - {m})
  }
}

=== FILE: wrappers.dfy ===
/** Option and Result, for the values the carrier may not return and the exceptions the pipeline raises. */
module Wrappers {

  datatype Option<+T> = None | Some(value: T)

  datatype Result<+T, +E> = Success(value: T) | Failure(error: E)
}
